=== FILE: README.md ===
# NyxNet loader, launch gate and source patcher: a Dafny model

NyxNet ships with three programs.

- **The loader** (`nyx_updater.py`) keeps a JSON configuration, asks for a password, checks GitHub for a newer commit, installs the downloaded package over the installation directory, and launches `NyxNet.exe` with a per-launch access token.
- **The main application** (`NyxNet_main.py`) refuses to start unless the `--access-token=` it receives is non-empty and equals the stripped text of the token file the loader wrote.
- **The one-off patcher** (`chatbox_security.py`) splices into the source text of `chatbox.py` a check that admits the same starts.

This project models the decision logic of all three as pure Dafny functions over explicit state, and proves what they promise.

- `wrappers.dfy`: `Option`, `Call` (a call that returns or raises), `Status`, and `WriteOutcome` (how writing a file with `open(..., "w")` ends: complete, failed `open`, or failed after the file was emptied).
- `pystr.dfy`: the Python `str` behaviour the code relies on.
  - Reading a text file, where `"\r\n"` and `'\r'` come back as `'\n'`.
  - `find`, which answers -1 when the needle is absent.
  - Clamped slices.
  - `split("\n")`, `"\n".join`, `strip()` and `startswith`.
- `config.dfy`: `LoaderConfig`.
  - Python's `dict.update` applied to whatever the JSON file holds.
  - The source's load, and a corrected load that always restores the built-in authentication hash, which is the store invariant.
  - Saving, where `open(..., "w")` empties the file before writing.
- `token.dfy`: `AccessTokenManager` and `verify_access_token`, with the token file as abstract state.
- `main_gate.dfy`: argument parsing and the start-up gate of the main application, plus the check the patcher injects.
- `filetree.dfy`: the installation directory as a tree of files and directories.
  - `shutil.copy2` and `shutil.copytree(dirs_exist_ok=True)`.
  - The pre-install backup filter and the package merge rule.
- `updater.dfy`: the `Updater` state machine.
  - Login, the update check and the install.
  - Launch and shutdown.
- `chatbox.dfy`: `add_security_to_chatbox`. It contains the insertion-point search, the main-block scan, the splice, the return values and the write-once backup. It also contains the findings below.

SHA-256 is the parameter `hash: string -> string`. Network replies, archive extraction, the minted token, timestamps and the outcome of each file-system call are inputs to the functions that need them.

## Model

| member | source | states |
|---|---|---|
| PyStr.Strip | NyxNet_main.py:20 | the result has no whitespace at either end and sits in the input with only whitespace around it |
| PyStr.StripIff | NyxNet_main.py:20 | `strip()` gives `s` exactly when the text is `s` with only whitespace around it and `s` has no whitespace at its ends, so the check can be read without computing `strip()` |
| PyStr.PaddedStrips | NyxNet_main.py:20 | a text with no whitespace at its ends, padded with whitespace on either side, strips back to itself |
| PyStr.Find | chatbox_security.py:71 | the result is the least position from `start` where the needle occurs, or -1 exactly when it occurs nowhere from there |
| PyStr.SplitLines | chatbox_security.py:76 | there is at least one piece, no piece holds a newline, and joining the pieces with newlines gives the text back |
| PyStr.Slice | chatbox_security.py:101-107 | in-range bounds give the ordinary slice; crossed bounds give the empty string; an end past the text is clamped |
| PyStr.ReadText | NyxNet_main.py:19-20 | the text a text-mode read returns holds no carriage return, is never longer than the file's text, equals it when the file holds no carriage return, and is all whitespace when the file's text is |
| PyStr.ReadTextAppend | NyxNet_main.py:19-20 | reading two pieces of text one after the other gives the read of the whole, when the cut does not fall inside a `"\r\n"` pair |
| Config.Defaults | nyx_updater.py:43-53 | no contract of its own: `Config.DefaultsReconciled` states what the six defaults promise |
| Config.DefaultsReconciled | nyx_updater.py:43-53 | the default settings already hold the hash of the built-in password, and the version starts at `0.0.0` |
| Config.Truthy | nyx_updater.py:213 | no contract of its own: Python truthiness of the `auto_backup` value; `Updater.DownloadUpdate` states that a truthy value puts the backup before the merge |
| Config.Save | nyx_updater.py:69-75 | memory never changes; a complete write makes the file hold the settings as a JSON object; a failed `open` leaves the file as it was; a write that fails after `open` leaves an unreadable, truncated file |
| Config.SaveLoadRoundTrip | nyx_updater.py:54-75 | loading a file that a complete save wrote gives back the saved settings, whenever the settings hold every default key and the built-in hash |
| Config.TruncatedSaveForgetsSettings | nyx_updater.py:69-75 | after a save that fails part-way, the next load sees only the defaults |
| Config.UpdateSeq | nyx_updater.py:61 | `dict.update` with a list: every key is kept, success means no element was malformed, keys no element names keep their value, and every new key comes from some element |
| Config.UpdateStopsAtFirstBad | nyx_updater.py:61 | a list update stops at its first malformed element: the pairs before it stay applied, the rest are ignored, and the update fails |
| Config.LastPairWins | nyx_updater.py:61 | in a list update that gets past element `i`, the last pair for a key decides its value |
| Config.Update | nyx_updater.py:61 | an object overrides exactly its own keys and succeeds; an empty string changes nothing and succeeds; a non-empty string or a scalar changes nothing and fails |
| Config.ElementEntry | nyx_updater.py:61 | no contract of its own: the rule by which `dict.update` reads one list element as a pair; `Config.UpdateStopsAtFirstBad` and `Config.LastPairWins` state its effect |
| Config.Load | nyx_updater.py:43-67 | corrected load: the settings always hold every default key and the hash of the built-in password, whatever the file holds; each key of an object file overrides its default, except `auth_hash`; a missing or unreadable file leaves the defaults; a missing file is saved |
| Config.LoadAsWritten | nyx_updater.py:54-67 | the source's load: it touches the file as `Config.Load` does, agrees with it on every key except `auth_hash`, and equals it whenever the update succeeds or no file was read |
| Config.ForgedHashSurvives | nyx_updater.py:58-65 | with the file `[["auth_hash", F], 0]`, the source's load keeps `F` as the authentication hash; the corrected load restores the built-in one |
| Config.RecordCheck | nyx_updater.py:77-80 | only `last_update_check` changes, to the given time, and the file follows as `Config.Save` describes |
| Config.RecordVersion | nyx_updater.py:82-86 | only `current_version` and `last_update` change, to the given values, and the file follows as `Config.Save` describes |
| Config.MutationsKeepReconciled | nyx_updater.py:77-86 | neither mutation breaks the store invariant, so the authentication hash survives every save |
| Config.ReloadIgnoresTamperedHash | nyx_updater.py:60-63 | whatever an object file says about `auth_hash`, reloading restores the built-in hash and takes every other key from the file; here the source's load and the corrected one agree |
| AccessToken.Generate | nyx_updater.py:92-115 | the token is returned exactly when the write completes, and then the file holds it; a failed `open` leaves the file as it was; a write failing after `open` leaves a prefix of the token in the file |
| AccessToken.TruncatedTokenRejected | nyx_updater.py:101-103 | when the write stops before the whole token reached the file, the token does not verify |
| AccessToken.Verify | NyxNet_main.py:12-25 | a token verifies only when the file exists and can be read, and then it has no surrounding whitespace and is no longer than the file's text; `AccessToken.VerifyIff` gives the full rule |
| AccessToken.Cleanup | nyx_updater.py:118-124 | the file is either gone or unchanged; a successful removal always leaves it gone; an absent file stays absent |
| AccessToken.CleanupIdempotent | nyx_updater.py:118-124 | a second clean-up changes nothing after a successful one, and never brings back a removed file |
| AccessToken.VerifyIff | NyxNet_main.py:12-25 | a token verifies exactly when the file's text, as a text-mode read returns it, holds the token with only whitespace around it, and the token has no whitespace at its ends |
| AccessToken.CarriageReturnTokenRejected | NyxNet_main.py:19-23 | a token holding a carriage return never verifies, whatever the file holds, because the read turns every `'\r'` into `'\n'` |
| AccessToken.AbsentFileRejects | NyxNet_main.py:14-15 | with no token file, nothing verifies |
| AccessToken.UnreadableFileRejects | NyxNet_main.py:24-25 | a read failure counts as a rejection |
| AccessToken.WrittenTokenVerifies | nyx_updater.py:101-103 | a token without surrounding whitespace or carriage returns, as the hex digest minted at nyx_updater.py:98 is, verifies once written |
| AccessToken.PaddedTokenVerifies | NyxNet_main.py:20 | trailing whitespace in the file, carriage returns included, does not stop a written token without carriage returns from verifying |
| AccessToken.RevokedTokenRejected | nyx_updater.py:118-124 | after a successful clean-up, the token that was written no longer verifies |
| MainGate.ParseAccessToken | NyxNet_main.py:30-32 | `None` exactly when no argument carries the option; otherwise the text after `--access-token=` of the last such argument |
| MainGate.LaterArgumentWins | NyxNet_main.py:30-32 | given the option twice, the second value is the one parsed |
| MainGate.ArgumentRoundTrip | nyx_updater.py:283 | the argument the loader builds parses back to the same token |
| MainGate.Gate | NyxNet_main.py:35-39 | every rejected start exits with status 1 after the two error lines |
| MainGate.GateAdmitsIff | NyxNet_main.py:35-39 | a start is admitted exactly when a non-empty token was given, the file exists and can be read, and the token equals the stripped text a text-mode read returns |
| MainGate.BlankFileAdmitsNobody | NyxNet_main.py:35 | a token file holding only whitespace admits no start at all |
| MainGate.InjectedCheck | chatbox_security.py:36-66 | the source's injected check: every rejection exits with status 1; two error lines are printed exactly when a non-empty token was compared against a readable file, otherwise one |
| MainGate.InjectedCheckIntended | chatbox_security.py:44-63 | the corrected injected check: every rejection prints exactly one error line and exits with status 1 |
| MainGate.MismatchPrintsTwoMessages | chatbox_security.py:58-63 | a wrong token against a readable file prints "Invalid access token" and then "Could not verify access token", because the bare `except` catches the first `sys.exit` |
| MainGate.InjectedCheckAgreesWithGate | chatbox_security.py:44-63 | the injected check, as written and corrected, admits exactly the starts the main gate admits, rejects the rest with the same status, and its first message is the corrected one |
| FileTree.PlaceFile | nyx_updater.py:257 | `copy2` of a file: onto nothing or a file it leaves the new file; onto a directory it puts the file inside under its own name, and fails when a directory already stands there |
| FileTree.CopyTree | nyx_updater.py:249 | whatever `copytree` produces is a directory; `FileTree.CopyRetains` and `FileTree.CopyDelivers` state the rest |
| FileTree.CopyEntry | nyx_updater.py:249 | no contract of its own: `FileTree.EntryRetains` and `FileTree.EntryDelivers` state what copying one entry keeps and delivers |
| FileTree.EntryRetains | nyx_updater.py:249 | copying one entry onto an existing node deletes nothing and changes no node's kind |
| FileTree.EntryDelivers | nyx_updater.py:249 | after copying one entry, every file of it is at its path, or inside the directory that stood there |
| FileTree.MergeEntry | nyx_updater.py:235-257 | no contract of its own: `FileTree.MergeRule` states each case of the installer's loop body |
| FileTree.Merge | nyx_updater.py:234-257 | no contract of its own: `FileTree.MergeRule` and `FileTree.MergeFresh` state the merge |
| FileTree.Backup | nyx_updater.py:213-231 | no contract of its own: `FileTree.BackupSnapshot`, `FileTree.BackupExcludes` and `FileTree.BackupRetains` state the backup |
| FileTree.CopyIntoNothing | nyx_updater.py:254 | copying a directory to a path that does not exist reproduces it exactly |
| FileTree.CopyRetains | nyx_updater.py:249 | a successful merge of a directory onto an existing one deletes nothing and changes nothing into a different kind of node |
| FileTree.CopyDelivers | nyx_updater.py:249 | after a successful merge, every file of the source is at its path, or inside the directory that stood there |
| FileTree.MergeRule | nyx_updater.py:234-257 | see the list after this table |
| FileTree.MergeFresh | nyx_updater.py:234-257 | a package with no name in common with the installation always installs, adding exactly its non-skipped entries |
| FileTree.BackupSelection | nyx_updater.py:219-224 | an entry is selected exactly when it is neither an excluded directory nor a hidden file, and selected entries are unchanged |
| FileTree.BackupSnapshot | nyx_updater.py:213-231 | with a fresh stamp, the backup succeeds and its snapshot is exactly the selection; earlier snapshots and everything outside `backups` are unchanged |
| FileTree.BackupExcludes | nyx_updater.py:219-224 | excluded directories, `backups` among them, and hidden files never enter a snapshot |
| FileTree.BackupRetains | nyx_updater.py:218-231 | a successful backup deletes nothing from the installation |
| Updater.Start | nyx_updater.py:129-131 | a fresh `Updater`, loaded with the corrected load, satisfies the store invariant and is not logged in |
| Updater.Authenticate | nyx_updater.py:133-137 | no contract of its own: `Updater.AuthenticateIff` states when a password passes |
| Updater.AuthenticateIff | nyx_updater.py:133-137 | on a reconciled store, a password passes exactly when its hash equals that of the built-in password |
| Updater.OnlyThePasswordGetsIn | nyx_updater.py:133-137 | with an injective hash and the corrected load, only the built-in password passes, whatever the configuration file held |
| Updater.ForgedConfigAdmits | nyx_updater.py:54-67 | with an injective hash and the file `[["auth_hash", hash(p)], 0]`, the source's load lets a password `p` other than the built-in one log in; the corrected load does not |
| Updater.Login | nyx_updater.py:541-560 | an empty entry changes nothing; the session becomes logged in exactly when the password authenticates; nothing else changes |
| Updater.CompareVersions | nyx_updater.py:153-173 | an update is reported only after a 200 reply with a decoded commit, and always comes with details |
| Updater.CheckForUpdates | nyx_updater.py:139-176 | see the list after this table |
| Updater.UpdateReportedIff | nyx_updater.py:156-173 | with both replies in, an update is reported exactly when the seven-character prefix of the SHA differs from the stored version; the details then carry that prefix and the commit's metadata, and otherwise the answer is "up to date" |
| Updater.RecheckIsStable | nyx_updater.py:141-162 | a second check against the same remote gives the same answer, and each check stamps its own time |
| Updater.FirstCheckScenario | nyx_updater.py:157-173 | on a fresh installation, commit `abc1234567` is reported as update `abc1234` |
| Updater.FirstFolder | nyx_updater.py:205-210 | the result is the first directory of the extracted listing, and exists exactly when the listing has one |
| Updater.DownloadUpdate | nyx_updater.py:178-265 | without a login nothing changes and the answer is "Authentication required"; the version is recorded exactly on success, and success needs a 200 download; on success the installation is the package's first folder merged into the installation, after the backup when `auto_backup` is set; on failure the store is unchanged and the installation is as before, or as the backup left it |
| Updater.InstallDeliversPackage | nyx_updater.py:213-257 | after a successful install, outside `backups`: no name disappears, every non-skipped top-level name of the package is present, a top-level package file replaces a missing entry or a file, and names the package skips or lacks keep their content |
| Updater.InstallNeverDeletes | nyx_updater.py:212-257 | an install attempt, successful or not, never deletes anything from the installation directory |
| Updater.InstalledVersionIsCurrent | nyx_updater.py:259-262 | after a successful install, checking against the same commit reports no update |
| Updater.Launch | nyx_updater.py:267-289 | see the list after this table |
| Updater.Shutdown | nyx_updater.py:674-678 | a successful removal leaves no token file; the store and the installation are unchanged |
| Updater.LaunchedChildIsAdmitted | nyx_updater.py:277-285 | for a token without surrounding whitespace or carriage returns, as the minted hex digest is, the process a successful launch spawns passes the main application's gate while the token file stands |
| Updater.ShutdownRevokesLaunch | nyx_updater.py:674-678 | once the loader has shut down and removed the file, the same command line is rejected |
| ChatboxPatch.InsertedTextCarriesSentinel | chatbox_security.py:30-68 | both inserted blocks contain `verify_access_token`, so a patched file is recognised as patched |
| ChatboxPatch.FirstCodeLine | chatbox_security.py:76-80 | the result is the first line after line 10 that starts with neither `import` nor `from`, or none when there is no such line |
| ChatboxPatch.InsertionPoint | chatbox_security.py:71-80 | see the list after this table |
| ChatboxPatch.InsertionPointAsWritten | chatbox_security.py:71-80 | the source's insertion point is -1 or a position within the text; `ChatboxPatch.InsertionPointAsWrittenNotLater` relates it to the corrected one |
| ChatboxPatch.CodeLineStart | chatbox_security.py:76-80 | the result is -1 exactly when there is no code line; otherwise it is a line start with as many newlines before it as the line's index, and the line's text follows it |
| ChatboxPatch.InsertionPointAsWrittenNotLater | chatbox_security.py:71-80 | the source's insertion point and the corrected one fail together and agree when a marker is present; otherwise the source's is never later |
| ChatboxPatch.MainCodeStart | chatbox_security.py:92-95 | the result is the start of the first non-blank line after the main marker's line, or the end of the file |
| ChatboxPatch.SkipBlankLines | chatbox_security.py:94-95 | from a line start, the result is the first non-blank line start, or the end; every line passed over is blank |
| ChatboxPatch.NextLineStartAsWritten | chatbox_security.py:93 | the result is just past the next newline, or 0 exactly when no newline follows |
| ChatboxPatch.ScanAsWritten | chatbox_security.py:94-95 | when the loop stops, it is at the end of the file or at a character that is not whitespace |
| ChatboxPatch.ScanAsWrittenStops | chatbox_security.py:93-95 | in a file ending with a newline, the loop stops at the first line start whose first character is not whitespace, or at the end |
| ChatboxPatch.MainCodeStartAsWritten | chatbox_security.py:92-95 | no contract of its own: `ChatboxPatch.ScanAsWritten` and `ChatboxPatch.ScanAsWrittenStops` state where the source's scan stops |
| ChatboxPatch.Splice | chatbox_security.py:101-107 | the result has the original length plus both blocks, plus the duplicated stretch when the points cross; it starts with the original up to `a`, and the inserted code follows |
| ChatboxPatch.SpliceRoundTrip | chatbox_security.py:101-107 | when `a <= b`, cutting both blocks out gives the original back, and the call sits at `b` shifted by the code |
| ChatboxPatch.SpliceDuplicates | chatbox_security.py:101-107 | when `a > b`, the text between `b` and `a` appears twice and the call directly follows the code |
| ChatboxPatch.PatchWith | chatbox_security.py:10-121 | for any inserted code naming the sentinel: a missing script gives False; a patched one gives True and writes nothing; otherwise True exactly when an insertion point and the main marker exist; a False answer writes nothing; a True answer leaves a script naming the sentinel; the backup is written only when missing and only from the pre-patch text |
| ChatboxPatch.AddSecurity | chatbox_security.py:10-121 | see the list after this table |
| ChatboxPatch.PatchRoundTrip | chatbox_security.py:101-113 | when the insertion point is not after the call site, removing both blocks from the written script gives the original text |
| ChatboxPatch.PatchIdempotent | chatbox_security.py:25-27 | running the patcher on its own output changes nothing and still answers True |
| ChatboxPatch.BackupKeepsFirstOriginal | chatbox_security.py:110-113 | the backup holds the text from before the first patch, and a later run never overwrites it |
| ChatboxPatch.PatchAsWritten | chatbox_security.py:10-121 | whenever the source's loop stops, the source and the corrected patch give the same answer and write the same backup; a failing run writes nothing; a successful run leaves a script that names the sentinel; when the loop does not stop, the corrected patch succeeds |
| ChatboxPatch.AsWrittenIdempotent | chatbox_security.py:25-27 | once the source's patch has succeeded, running it again answers True and writes nothing, however the first run placed the blocks |
| ChatboxPatch.AddSecurityAsWritten | chatbox_security.py:10-121 | no contract of its own: the source's function is `ChatboxPatch.PatchAsWritten` with the source's inserted texts, so its contract applies |
| ChatboxPatch.IndentedMainBlockSkipped | chatbox_security.py:94-95 | on `if __name__ == "__main__":` + `\n    main()\n`, the source's scan ends at the end of the file; the corrected scan stops at `main()` |
| ChatboxPatch.IndentedBlockScan | chatbox_security.py:92-95 | for any marker line followed by one indented, non-blank, newline-terminated line, the source's scan ends at the end of the file and the corrected scan stops at that line |
| ChatboxPatch.MissingFinalNewlineWraps | chatbox_security.py:95 | on the import marker, the main marker and `    main()` with no final newline, the source's scan wraps to 0; the corrected scan stops at `main()` |
| ChatboxPatch.WrapsGeneric | chatbox_security.py:92-95 | for any marker line followed by one indented, non-blank last line with no newline after it, the source's scan wraps to 0 and the corrected scan stops at that line |
| ChatboxPatch.WrappedPatchGuardsNothing | chatbox_security.py:101-107 | on that text, the source's patch splices both blocks at 0, ahead of the whole original |
| ChatboxPatch.ScanNeverEnds | chatbox_security.py:94-95 | when every line starts with whitespace and the file does not end with a newline, the source's loop never stops |
| ChatboxPatch.IndentedPatchLoops | chatbox_security.py:94-95 | any such unpatched file with both markers hangs the source's patcher, while the corrected patch succeeds |
| ChatboxPatch.AllIndentedLoopsForever | chatbox_security.py:94-95 | the source's patcher never finishes on a concrete three-line file of that shape, while the corrected patch succeeds |
| ChatboxPatch.EmptyCodeLineFoundAtZero | chatbox_security.py:79 | with eleven import lines followed by an empty line, the source inserts at 0; the corrected point is after the imports |

Rows that say "see the list after this table":

- **FileTree.MergeRule.** After a successful merge:
  - skip-listed names and names absent from the package are untouched;
  - a package file overwrites a missing entry or a file;
  - existing `backups`, `venv` and `env` directories are unchanged;
  - new directories are copied whole;
  - other existing entries receive every file of a non-empty package directory, and an empty package directory changes nothing;
  - nothing installed is deleted.
- **Updater.CheckForUpdates.** The check time is always recorded first. A non-200 repository reply gives "Failed to connect to update server". An update is reported only when both replies are 200 and decode. It then carries the seven-character SHA prefix, which differs from the stored version.
- **Updater.Launch.** The store, the installation and the login are unchanged. The launch succeeds exactly when a process was spawned. Without a login or `NyxNet.exe` nothing happens. A token write that does not complete spawns nothing. A failed `open` leaves the token file as it was. A write that fails after `open` answers "Failed to generate access token" and leaves a prefix of the token in the file. On success the file holds the token, and the child gets `--access-token=<token>`. A spawn error triggers clean-up.
- **ChatboxPatch.InsertionPoint.** The first `# Import login system` wins. Failing that, the first `from io import BytesIO`. Failing that, the start of the first line after line 10 that is not an import: it is a line start, preceded by exactly that many newlines, and holds that line. -1 exactly when none exists.
- **ChatboxPatch.AddSecurity.**
  - A missing script gives False.
  - A script that names the sentinel gives True and writes nothing.
  - Otherwise the answer is True exactly when an insertion point and the main marker exist.
  - A False answer writes nothing, and a True answer leaves a script that names the sentinel.
  - The backup is written once, from the pre-patch text.

## Left out

- The GUI (`UpdaterApp`): widgets, threads, message boxes and window state. Only the login handler and the close handler are modelled, as `Updater.Login` and `Updater.Shutdown`.
- HTTP, the zip format and the streaming of the download. Replies and the extracted top-level listing are inputs. `Call.Raised` stands for any exception they raise, with its text.
- The hash: SHA-256 is a parameter. `Updater.OnlyThePasswordGetsIn` assumes the parameter is injective; the real digest is not proved to be.
- The random, time and uuid sources of the token, and `datetime` formatting. Tokens, timestamps and the backup stamp are inputs.
- JSON floats. Numbers are integers.
- Config.ElementEntry: a two-key object inside a list is modelled as naming no string key, because which of its keys comes first depends on the file's text; Python stores the second key under the first. A pair whose key is a number, a boolean or null is stored under a key no string lookup reaches, so the model drops it. The next `save_config` (`json.dump`, nyx_updater.py:73) writes such a key back as a string such as `"1"`, `"true"` or `"null"`, which a later load then reads; none of these strings is a default key.
- Config.Save: a failure raised after the whole text has reached the file, for example on `close`, is modelled as a truncated file.
- Config.Load is the corrected load, which resets `auth_hash` on every path. `Updater.Start` and the rest of the model use it. `Config.LoadAsWritten` models the source, and `Config.ForgedHashSurvives` shows where the two differ.
- Updater.DownloadUpdate: the configuration file and the token file live in the installation directory, so the backup copies them into each snapshot, and the merge overwrites them when the package ships files of those names. The model keeps both files outside the `app` tree, so neither effect is modelled.
- `DownloadUpdate`: a failure part-way through the backup or the merge keeps the tree from before the failing step. The partial writes the source leaves behind depend on directory iteration order and are not modelled. Likewise `copytree` onto a file fails as a whole.
- FileTree.MergeRule: `Delivered` is weaker where a package file lands on an existing directory. It then says the file is inside that directory, which is what `copy2` does, rather than at the path itself.
- `AccessToken.Generate`: the Windows hidden-file attribute is left out, because it does not change the file's content.
- AccessToken.Generate: the file holds the token exactly as `write` received it, which is what POSIX stores. On Windows, text mode also writes each `'\n'` as `"\r\n"`. The read turns that back into `'\n'`, and a token holding `'\r'` fails on either platform, so no verification verdict depends on the difference.
- `MainGate.ParseAccessToken` models only the `--access-token=<value>` spelling the loader uses. Left out:
  - the separate-argument form `--access-token <value>`;
  - argparse's prefix abbreviations such as `--access-tok=<value>`, which set the token while the model returns `None`;
  - `-h` and `--help`, which print the usage and exit with status 0 before the gate is reached;
  - argparse's exit status 2 for unknown arguments (`parse_args`) and for a bare option without a value.
- The delay before the main application exits, the "Access granted" line of the injected check, the main application's own body, and the chat box itself.
- ChatboxPatch.AddSecurity: encoding errors on read and write, and failures to write the backup, are left out. The `print` messages are left out too; only the return value and the files are modelled.
- ChatboxPatch.AddSecurity uses the corrected insertion point and main-block scan (see Findings). `ChatboxPatch.PatchAsWritten` models the source's own steps.
- ChatboxPatch.PatchAsWritten: the loop at lines 94-95 gets a fuel bound. `None` means "not stopped within that many iterations", and `ChatboxPatch.ScanNeverEnds` shows inputs where no bound suffices.

## Findings

| source | as written | input that shows it | evidently intended | confidence | as-written member | corrected member |
|---|---|---|---|---|---|---|
| chatbox_security.py:94-95 | the loop skips every line whose first character is whitespace; every statement of a main block is indented, so the scan runs past the whole block and the check lands after the code it guards | `if __name__ == "__main__":` + `\n    main()\n`: the scan stops at the end of the file, offset 38 | stop at the first non-blank line after the marker, offset 27 | high that it misplaces the check; not executed | ChatboxPatch.IndentedMainBlockSkipped | ChatboxPatch.MainCodeStart |
| chatbox_security.py:95 | `content.find("\n", main_code_start) + 1` is 0 when the last line has no newline, so the scan restarts at the top of the file | `# Import login system` + `\n` + `if __name__ == "__main__":` + `\n    main()`: both insertion points are 0, so the call goes right after the inserted function and before the whole original | stop at the end of the file when no newline follows | high; not executed | ChatboxPatch.MissingFinalNewlineWraps | ChatboxPatch.MainCodeStart |
| chatbox_security.py:94-95 | with every line indented and no final newline, the wrap to 0 and the skip of indented lines make the loop cycle forever | ` # Import login system` + `\n ` + `if __name__ == "__main__":` + `\n x` | the scan always stops | high; not executed | ChatboxPatch.AllIndentedLoopsForever | ChatboxPatch.MainCodeStart |
| chatbox_security.py:79 | `content.find(line)` looks for the line's text, so an empty line, or one whose text appears earlier, is found at the wrong place | eleven `import os` lines, an empty line, then `main()`: the source inserts at 0 | the offset at which that line begins, after the eleven imports | medium that the position matters; not executed | ChatboxPatch.EmptyCodeLineFoundAtZero | ChatboxPatch.InsertionPoint |
| nyx_updater.py:58-65 | `self.config.update(loaded_config)` applies a list of pairs one pair at a time and raises at the first element that is not a pair; the `except` at line 64 then skips the reset of `auth_hash` at line 63 | a `loader_config.json` holding `[["auth_hash", H], 0]`, where `H` is the SHA-256 of any password: that password logs in | reset `auth_hash` whatever the update did | high; not executed | Updater.ForgedConfigAdmits | Config.Load |
| chatbox_security.py:58-63 | the `sys.exit(1)` after a token mismatch raises `SystemExit` inside the `try`, and the bare `except:` catches it | a wrong token with a readable token file prints "Invalid access token" and then "Could not verify access token" before exiting | one message, then exit | high; not executed | MainGate.MismatchPrintsTwoMessages | MainGate.InjectedCheckIntended |

=== FILE: chatbox.dfy ===
/** The one-off patcher `add_security_to_chatbox`: it splices an access-token
    check into the source text of `chatbox.py`. A `verify_access_token`
    function goes at an insertion point near the imports, and a call to it goes
    at the first code line of the `if __name__ == "__main__":` block. The
    original text is kept in `chatbox.py.bak` the first time. Three steps of
    the search are modelled twice: as the source writes them, and as corrected
    (see the findings lemmas at the end). The patch itself uses the corrected
    steps. */
module ChatboxPatch {
  import opened Wrappers
  import opened PyStr

  /** The name whose presence marks a file as already patched. */
  const Sentinel: string := "verify_access_token"

  const ImportMarker: string := "# Import login system"
  const BytesIOMarker: string := "from io import BytesIO"
  const MainMarker: string := "if __name__ == \"__main__\":"

  /** The inserted block up to the function's name, one element per line: it
      opens with a newline, adds its imports, and breaks off after `def `. */
  const SecurityCodeHeadLines: seq<string> := [
      "",
      "import argparse",
      "import sys",
      "from pathlib import Path",
      "",
      "# Security check - verify access token",
      "def "
    ]

  const SecurityCodeHead: string := JoinLines(SecurityCodeHeadLines)

  /** The rest of the inserted function, one element per line of the source
      text, from the parameter list to the blank lines after its last line. */
  const SecurityCodeTailLines: seq<string> := [
      "():",
      "    \"\"\"Verify that the application was launched with a valid access token\"\"\"",
      "    # Check command line arguments",
      "    parser = argparse.ArgumentParser(description=\"NyxNet Secure Application\")",
      "    parser.add_argument(\"--access-token\", help=\"Access token for authentication\")",
      "    args, unknown = parser.parse_known_args()",
      "    ",
      "    # Check for access token",
      "    if not args.access_token:",
      "        print(\"Error: No access token provided. Please use the official NyxNet Loader.\")",
      "        sys.exit(1)",
      "    ",
      "    # Verify token against temporary file",
      "    token_file = Path(os.path.dirname(os.path.abspath(__file__))) / \"access_token.tmp\"",
      "    if not token_file.exists():",
      "        print(\"Error: Invalid launch method. Please use the official NyxNet Loader.\")",
      "        sys.exit(1)",
      "    ",
      "    try:",
      "        with open(token_file, \"r\") as f:",
      "            stored_token = f.read().strip()",
      "        ",
      "        if args.access_token != stored_token:",
      "            print(\"Error: Invalid access token. Please use the official NyxNet Loader.\")",
      "            sys.exit(1)",
      "    except:",
      "        print(\"Error: Could not verify access token. Please use the official NyxNet Loader.\")",
      "        sys.exit(1)",
      "    ",
      "    # Token is valid, continue with application",
      "    print(\"Access granted. Welcome to NyxNet.\")",
      "",
      ""
    ]

  const SecurityCodeTail: string := JoinLines(SecurityCodeTailLines)

  /** The block inserted near the imports: it defines the `verify_access_token`
      that `MainGate.InjectedCheck` models. */
  const SecurityCode: string := SecurityCodeHead + Sentinel + SecurityCodeTail

  /** The call inserted at the start of the main block. */
  const SecurityCheck: string := "    # Verify access token before starting\n    " + Sentinel + "()\n    \n"

  /** Both inserted pieces name the sentinel, so a patched file is recognised as such. */
  lemma {:induction false} InsertedTextCarriesSentinel()
    ensures Contains(SecurityCode, Sentinel)
    ensures Contains(SecurityCheck, Sentinel)
  {
    assert OccursAt(Sentinel, Sentinel, 0);
    ContainsWithin(SecurityCodeHead, Sentinel, SecurityCodeTail, Sentinel);
    ContainsWithin("    # Verify access token before starting\n    ", Sentinel, "()\n    \n", Sentinel);
  }

  // ---------------------------------------------------------------------
  // The insertion point

  /** Line `i` of the file may take the inserted code in the last-resort rule:
      it comes after the first eleven lines and is not an import. */
  predicate IsCodeLine(i: nat, line: string) {
    i > 10 && !StartsWith(line, "import") && !StartsWith(line, "from")
  }

  /** The first line from `start` on that `IsCodeLine` accepts. */
  function FirstCodeLine(lines: seq<string>, start: nat): (r: Option<nat>)
    ensures r.Some? ==> start <= r.value < |lines| && IsCodeLine(r.value, lines[r.value])
    ensures r.Some? ==> forall j :: start <= j < r.value ==> !IsCodeLine(j, lines[j])
    ensures r.None? ==> forall j :: start <= j < |lines| ==> !IsCodeLine(j, lines[j])
    decreases |lines| - start
  {
    if start >= |lines| then None
    else if IsCodeLine(start, lines[start]) then Some(start)
    else FirstCodeLine(lines, start + 1)
  }

  /** The insertion point as the source computes it. The last resort takes
      `content.find(line)`, which is the first place the line's TEXT occurs.
      That place need not be the line itself: an empty line is "found" at 0. */
  function InsertionPointAsWritten(content: string): (r: int)
    ensures r == -1 || 0 <= r <= |content|
  {
    var i := Find(content, ImportMarker, 0);
    if i != -1 then i
    else
      var j := Find(content, BytesIOMarker, 0);
      if j != -1 then j
      else
        var lines := SplitLines(content);
        match FirstCodeLine(lines, 0)
        case Some(k) => Find(content, lines[k], 0)
        case None => -1
  }

  /** The insertion point, corrected. The first `# Import login system` wins.
      Failing that, the first `from io import BytesIO`. Failing that, the
      start of the first line after line 10 that is not an import. -1 when
      none of these exists. */
  function InsertionPoint(content: string): (r: int)
    ensures r == -1 || 0 <= r <= |content|
    ensures Contains(content, ImportMarker) ==>
      OccursAt(content, ImportMarker, r) && forall j :: 0 <= j < r ==> !OccursAt(content, ImportMarker, j)
    ensures !Contains(content, ImportMarker) && Contains(content, BytesIOMarker) ==>
      OccursAt(content, BytesIOMarker, r) && forall j :: 0 <= j < r ==> !OccursAt(content, BytesIOMarker, j)
    ensures !Contains(content, ImportMarker) && !Contains(content, BytesIOMarker) ==>
      r == CodeLineStart(content)
  {
    var i := Find(content, ImportMarker, 0);
    if i != -1 then i
    else
      var j := Find(content, BytesIOMarker, 0);
      if j != -1 then j
      else CodeLineStart(content)
  }

  /** The last resort, corrected: where the first line after line 10 that is
      not an import begins. That is a line start preceded by exactly that many
      newlines, and the line's text follows it. -1 when there is no such line. */
  function CodeLineStart(content: string): (r: int)
    ensures r == -1 <==> FirstCodeLine(SplitLines(content), 0).None?
    ensures r != -1 ==>
      LineAt(content, r, FirstCodeLine(SplitLines(content), 0).value, SplitLines(content))
  {
    var lines := SplitLines(content);
    var first := FirstCodeLine(lines, 0);
    if first.None? then -1
    else
      LineOffsetInText(content, lines, first.value);
      LineOffset(lines, first.value)
  }

  /** Line `k` of `lines` begins at `r` in `content`: `r` is a line start
      with `k` newlines before it, and the line's text follows it. */
  predicate LineAt(content: string, r: int, k: nat, lines: seq<string>)
    requires k < |lines|
  {
    && 0 <= r <= |content|
    && LineStart(content, r)
    && Newlines(content[..r]) == k
    && r + |lines[k]| <= |content|
    && content[r..r + |lines[k]|] == lines[k]
  }

  /** Where line `k` of `content` begins, in terms of the text itself. */
  lemma {:induction false} LineOffsetInText(content: string, lines: seq<string>, k: nat)
    requires lines == SplitLines(content) && k < |lines|
    ensures LineAt(content, LineOffset(lines, k), k, lines)
  {
    assert JoinLines(lines) == content;
    LineOffsetLocates(lines, k);
    LineOffsetCountsLines(lines, k);
  }

  /** The two insertion points differ only in the last-resort rule. There the
      source's answer never lies after the corrected one. */
  lemma {:induction false} InsertionPointAsWrittenNotLater(content: string)
    ensures InsertionPointAsWritten(content) == -1 <==> InsertionPoint(content) == -1
    ensures InsertionPointAsWritten(content) <= InsertionPoint(content)
    ensures Contains(content, ImportMarker) || Contains(content, BytesIOMarker) ==>
      InsertionPointAsWritten(content) == InsertionPoint(content)
  {
    var lines := SplitLines(content);
    if !Contains(content, ImportMarker) && !Contains(content, BytesIOMarker) && FirstCodeLine(lines, 0).Some? {
      var k := FirstCodeLine(lines, 0).value;
      LineOffsetLocates(lines, k);
      assert OccursAt(content, lines[k], LineOffset(lines, k));
    }
  }

  // ---------------------------------------------------------------------
  // Lines of the file

  /** `p` is where a line begins: the start of the text or just after a newline. */
  predicate LineStart(s: string, p: int) {
    p == 0 || (0 < p <= |s| && s[p - 1] == '\n')
  }

  /** The newline that ends the line through `p`, or the end of the text. */
  function LineEnd(s: string, p: nat): (e: nat)
    requires p <= |s|
    ensures p <= e <= |s|
    ensures e < |s| ==> s[e] == '\n'
    ensures forall j :: p <= j < e ==> s[j] != '\n'
  {
    var k := Find(s, "\n", p);
    forall j | p <= j < (if k == -1 then |s| else k) ensures s[j] != '\n' {
      OccursAtChar(s, '\n', j);
    }
    if k == -1 then |s|
    else
      OccursAtChar(s, '\n', k);
      k
  }

  /** The line starting at `p` holds only whitespace. */
  predicate BlankLine(s: string, p: nat)
    requires p <= |s|
  {
    AllSpace(s[p..LineEnd(s, p)])
  }

  /** Where the line after the one through `p` begins, or the end of the text
      when that line is the last. */
  function NextLineStart(s: string, p: nat): (r: nat)
    requires p <= |s|
    ensures p < |s| ==> p < r
    ensures r <= |s|
    ensures r == |s| || LineStart(s, r)
    ensures forall q :: p < q < r ==> !LineStart(s, q)
  {
    var e := LineEnd(s, p);
    if e < |s| then e + 1 else |s|
  }

  // ---------------------------------------------------------------------
  // The first code line of the main block

  /** The first line start from `p` on that is not blank, or the end of the text. */
  function SkipBlankLines(s: string, p: nat): (r: nat)
    requires p <= |s|
    requires p == |s| || LineStart(s, p)
    ensures p <= r <= |s|
    ensures r == |s| || (LineStart(s, r) && !BlankLine(s, r))
    ensures forall q {:trigger LineStart(s, q)} :: p <= q < r && LineStart(s, q) ==> BlankLine(s, q)
    decreases |s| - p
  {
    if p < |s| && BlankLine(s, p) then
      var n := NextLineStart(s, p);
      var r := SkipBlankLines(s, n);
      assert forall q :: p <= q < n && LineStart(s, q) ==> q == p;
      r
    else p
  }

  /** Where the corrected patch puts the call: the start of the first non-blank
      line after the marker's line, or the end of the file when there is none. */
  function MainCodeStart(s: string, marker: nat): (r: nat)
    requires marker <= |s|
    ensures r <= |s|
    ensures r == |s| || (LineStart(s, r) && !BlankLine(s, r) && LineEnd(s, marker) < r)
    ensures forall q {:trigger LineStart(s, q)} :: marker < q < r && LineStart(s, q) ==> BlankLine(s, q)
  {
    var n := NextLineStart(s, marker);
    var r := SkipBlankLines(s, n);
    assert r < |s| ==> LineEnd(s, marker) < r by {
      if r < |s| {
        assert n < |s|;
      }
    }
    r
  }

  /** Lines 93 and 95 as written: `content.find("\n", m) + 1`. When no newline
      follows `m` this is 0, the start of the file. */
  function NextLineStartAsWritten(s: string, m: nat): (r: nat)
    ensures r <= |s|
    ensures r == 0 <==> forall j :: m <= j < |s| ==> s[j] != '\n'
    ensures r != 0 ==> m < r && s[r - 1] == '\n'
    ensures r != 0 ==> forall j :: m <= j < r - 1 ==> s[j] != '\n'
  {
    var k := Find(s, "\n", m);
    forall j | m <= j ensures OccursAt(s, "\n", j) <==> 0 <= j < |s| && s[j] == '\n' {
      OccursAtChar(s, '\n', j);
    }
    k + 1
  }

  /** The loop at lines 94-95 as written, allowed `fuel` iterations. It skips
      every line whose first character is whitespace, with no guard against
      the wrap to 0. `None` means it has not stopped after `fuel` iterations. */
  function ScanAsWritten(s: string, m: nat, fuel: nat): (r: Option<nat>)
    requires m <= |s|
    ensures r.Some? ==> r.value <= |s| && (r.value == |s| || !IsSpace(s[r.value]))
    decreases fuel
  {
    if !(m < |s| && IsSpace(s[m])) then Some(m)
    else if fuel == 0 then None
    else ScanAsWritten(s, NextLineStartAsWritten(s, m), fuel - 1)
  }

  /** `main_code_start` as the source computes it. */
  function MainCodeStartAsWritten(s: string, marker: nat, fuel: nat): Option<nat> {
    ScanAsWritten(s, NextLineStartAsWritten(s, marker), fuel)
  }

  /** In a text that ends with a newline the scan never wraps. It stops, within
      one iteration per character, at the first line start whose first
      character is not whitespace, or at the end of the text. */
  lemma {:induction false} ScanAsWrittenStops(s: string, m: nat, fuel: nat)
    requires |s| > 0 && s[|s| - 1] == '\n'
    requires m <= |s| && LineStart(s, m)
    requires fuel >= |s| - m
    ensures ScanAsWritten(s, m, fuel).Some?
    ensures var r := ScanAsWritten(s, m, fuel).value;
      && m <= r && LineStart(s, r)
      && forall q {:trigger LineStart(s, q)} :: m <= q < r && LineStart(s, q) ==> IsSpace(s[q])
    decreases fuel
  {
    if m < |s| && IsSpace(s[m]) {
      var n := NextLineStartAsWritten(s, m);
      assert n != 0;
      ScanAsWrittenStops(s, n, fuel - 1);
      assert forall q :: m < q < n ==> !LineStart(s, q);
    }
  }

  // ---------------------------------------------------------------------
  // The splice

  /** `content[:a] + code + content[a:b] + check + content[b:]`. The texts are
      parameters here; the patch below supplies `SecurityCode` and `SecurityCheck`. */
  function Splice(content: string, code: string, check: string, a: nat, b: nat): (r: string)
    requires a <= |content| && b <= |content|
    ensures |r| == |content| + |code| + |check| + (if a > b then a - b else 0)
    ensures r[..a] == content[..a]
    ensures r[a..a + |code|] == code
  {
    Slice(content, 0, a) + code + Slice(content, a, b) + check + Slice(content, b, |content|)
  }

  /** Cutting the two inserted blocks back out. */
  function Unsplice(patched: string, code: string, check: string, a: nat, b: nat): string
    requires a <= b && b + |code| + |check| <= |patched|
  {
    patched[..a] + patched[a + |code|..b + |code|] + patched[b + |code| + |check|..]
  }

  /** When the insertion point does not lie after the call site, the splice
      only adds text: cutting the two blocks out gives the original back, and
      the check sits at `b` shifted by the inserted code. */
  lemma {:induction false} SpliceRoundTrip(content: string, code: string, check: string, a: nat, b: nat)
    requires a <= b <= |content|
    ensures Unsplice(Splice(content, code, check, a, b), code, check, a, b) == content
    ensures var r := Splice(content, code, check, a, b);
      r[b + |code|..b + |code| + |check|] == check
  {
    SpliceShape(content, code, check, a, b);
    UnspliceFive(Splice(content, code, check, a, b), content[..a], code, content[a..b], check, content[b..], a, b);
    ThreeParts(content, a, b);
  }

  lemma {:induction false} UnspliceFive(r: string, p: string, c: string, m: string, k: string, q: string, a: nat, b: nat)
    requires r == p + c + m + k + q && a == |p| && b == |p| + |m|
    ensures Unsplice(r, c, k, a, b) == p + m + q
    ensures r[b + |c|..b + |c| + |k|] == k
  {
    CutFive(p, c, m, k, q);
  }

  lemma {:induction false} SpliceShape(content: string, code: string, check: string, a: nat, b: nat)
    requires a <= b <= |content|
    ensures Splice(content, code, check, a, b) == content[..a] + code + content[a..b] + check + content[b..]
  {
    assert Slice(content, 0, a) == content[..a];
    assert Slice(content, a, b) == content[a..b];
    assert Slice(content, b, |content|) == content[b..];
  }

  /** Slicing a five-part concatenation at its seams. */
  lemma {:induction false} CutFive(p: string, c: string, m: string, k: string, q: string)
    ensures var r := p + c + m + k + q;
      && r[..|p|] == p
      && r[|p| + |c|..|p| + |c| + |m|] == m
      && r[|p| + |c| + |m|..|p| + |c| + |m| + |k|] == k
      && r[|p| + |c| + |m| + |k|..] == q
  {
  }

  /** When the insertion point lies after the call site, the text between them
      appears twice, and the check directly follows the inserted code. */
  lemma {:induction false} SpliceDuplicates(content: string, code: string, check: string, a: nat, b: nat)
    requires b < a <= |content|
    ensures Splice(content, code, check, a, b) == content[..a] + code + check + content[b..]
    ensures var r := Splice(content, code, check, a, b);
      r[a + |code| + |check| + (a - b)..] == content[a..]
  {
    var r := Splice(content, code, check, a, b);
    assert Slice(content, 0, a) == content[..a];
    assert Slice(content, a, b) == [];
    assert Slice(content, b, |content|) == content[b..];
    assert r == content[..a] + code + check + content[b..];
    TailOfFour(content[..a], code, check, content[b..]);
    assert content[b..][a - b..] == content[a..];
  }

  lemma {:induction false} TailOfFour(p: string, c: string, k: string, q: string)
    ensures (p + c + k + q)[|p| + |c| + |k|..] == q
  {
  }

  /** Whatever names the sentinel in the inserted code also names it in the result. */
  lemma {:induction false} SpliceNamesSentinel(content: string, code: string, check: string, a: nat, b: nat)
    requires a <= |content| && b <= |content|
    requires Contains(code, Sentinel)
    ensures Contains(Splice(content, code, check, a, b), Sentinel)
    ensures Splice(content, code, check, a, b) != content
  {
    var r := Splice(content, code, check, a, b);
    ContainsWithin(Slice(content, 0, a), code, Slice(content, a, b), Sentinel);
    ContainsExtended(Slice(content, 0, a) + code + Slice(content, a, b), check, Sentinel);
    ContainsExtended(Slice(content, 0, a) + code + Slice(content, a, b) + check,
                     Slice(content, b, |content|), Sentinel);
    assert |code| > 0 by {
      assert OccursAt(code, Sentinel, Find(code, Sentinel, 0));
    }
  }

  // ---------------------------------------------------------------------
  // The patch

  /** `chatbox.py` and `chatbox.py.bak`; `None` for a file that does not exist. */
  datatype PatchFiles = PatchFiles(script: Option<string>, backup: Option<string>)

  /** The function's return value and the files it leaves behind. */
  datatype PatchResult = PatchResult(ok: bool, files: PatchFiles)

  /** The patch, for any inserted code that names the sentinel. */
  function PatchWith(f: PatchFiles, code: string, check: string): (r: PatchResult)
    requires Contains(code, Sentinel)
    ensures f.script.None? ==> r == PatchResult(false, f)
    ensures f.script.Some? && Contains(f.script.value, Sentinel) ==> r == PatchResult(true, f)
    ensures f.script.Some? && !Contains(f.script.value, Sentinel) ==>
      (r.ok <==> InsertionPoint(f.script.value) != -1 && Contains(f.script.value, MainMarker))
    ensures !r.ok ==> r.files == f
    ensures r.ok ==> r.files.script.Some? && Contains(r.files.script.value, Sentinel)
    ensures r.files.backup == (if f.backup.None? && r.files != f then f.script else f.backup)
  {
    match f.script
    case None => PatchResult(false, f)
    case Some(content) =>
      if Contains(content, Sentinel) then PatchResult(true, f)
      else
        var a := InsertionPoint(content);
        if a == -1 then PatchResult(false, f)
        else
          var m := Find(content, MainMarker, 0);
          if m == -1 then PatchResult(false, f)
          else
            var b := MainCodeStart(content, m);
            var patched := Splice(content, code, check, a, b);
            SpliceNamesSentinel(content, code, check, a, b);
            var backup := if f.backup.None? then Some(content) else f.backup;
            PatchResult(true, PatchFiles(Some(patched), backup))
  }

  /** `add_security_to_chatbox` with the corrected search. There is no
      `chatbox.py`: False. It already names the sentinel: True, nothing
      written. No insertion point, or no main marker: False, nothing written.
      Otherwise the backup is written if it is missing, the spliced text
      replaces the script, and the result is True. */
  function AddSecurity(f: PatchFiles): (r: PatchResult)
    ensures f.script.None? ==> r == PatchResult(false, f)
    ensures f.script.Some? && Contains(f.script.value, Sentinel) ==> r == PatchResult(true, f)
    ensures f.script.Some? && !Contains(f.script.value, Sentinel) ==>
      (r.ok <==> InsertionPoint(f.script.value) != -1 && Contains(f.script.value, MainMarker))
    ensures !r.ok ==> r.files == f
    ensures r.ok ==> r.files.script.Some? && Contains(r.files.script.value, Sentinel)
    ensures r.files.backup == (if f.backup.None? && r.files != f then f.script else f.backup)
  {
    InsertedTextCarriesSentinel();
    PatchWith(f, SecurityCode, SecurityCheck)
  }

  /** What the patch writes is the original with the two blocks spliced in:
      when the insertion point does not lie after the call site, cutting them
      back out gives the text that went into the backup. */
  lemma {:induction false} PatchRoundTrip(content: string, backup: Option<string>, code: string, check: string)
    requires Contains(code, Sentinel) && !Contains(content, Sentinel)
    requires InsertionPoint(content) != -1 && Contains(content, MainMarker)
    requires InsertionPoint(content) <= MainCodeStart(content, Find(content, MainMarker, 0))
    ensures var r := PatchWith(PatchFiles(Some(content), backup), code, check);
      var a := InsertionPoint(content);
      var b := MainCodeStart(content, Find(content, MainMarker, 0));
      && r.ok && r.files.script.Some?
      && b + |code| + |check| <= |r.files.script.value|
      && Unsplice(r.files.script.value, code, check, a, b) == content
  {
    var a := InsertionPoint(content);
    var b := MainCodeStart(content, Find(content, MainMarker, 0));
    SpliceRoundTrip(content, code, check, a, b);
  }

  /** Patching twice is patching once: the second run finds the sentinel and
      leaves the files alone. */
  lemma PatchIdempotent(f: PatchFiles)
    ensures AddSecurity(AddSecurity(f).files).files == AddSecurity(f).files
    ensures AddSecurity(f).ok ==> AddSecurity(AddSecurity(f).files).ok
  {
  }

  /** The backup holds the text from before the first patch and is never
      overwritten by a later run. */
  lemma BackupKeepsFirstOriginal(original: string)
    requires !Contains(original, Sentinel)
    requires AddSecurity(PatchFiles(Some(original), None)).ok
    ensures AddSecurity(PatchFiles(Some(original), None)).files.backup == Some(original)
    ensures var once := AddSecurity(PatchFiles(Some(original), None)).files;
      AddSecurity(once).files.backup == Some(original)
  {
  }

  // ---------------------------------------------------------------------
  // The source as written, and the inputs on which it goes wrong

  /** `add_security_to_chatbox` as written, for any inserted code, allowed
      `fuel` iterations of the loop at lines 94-95. `None` when that loop has
      not stopped. Whenever it does stop, it agrees with the corrected patch on
      the verdict and on the backup. */
  function PatchAsWritten(f: PatchFiles, code: string, check: string, fuel: nat): (r: Option<PatchResult>)
    requires Contains(code, Sentinel)
    ensures r.Some? ==> r.value.ok == PatchWith(f, code, check).ok
    ensures r.Some? ==> r.value.files.backup == PatchWith(f, code, check).files.backup
    ensures r.Some? && !r.value.ok ==> r.value.files == f
    ensures r.None? ==> PatchWith(f, code, check).ok && PatchWith(f, code, check).files != f
    ensures r.Some? && r.value.ok ==> r.value.files.script.Some? && Contains(r.value.files.script.value, Sentinel)
  {
    match f.script
    case None => Some(PatchResult(false, f))
    case Some(content) =>
      if Contains(content, Sentinel) then Some(PatchResult(true, f))
      else
        InsertionPointAsWrittenNotLater(content);
        var a := InsertionPointAsWritten(content);
        if a == -1 then Some(PatchResult(false, f))
        else
          var m := Find(content, MainMarker, 0);
          if m == -1 then Some(PatchResult(false, f))
          else
            match MainCodeStartAsWritten(content, m, fuel)
            case None => None
            case Some(b) =>
              SpliceNamesSentinel(content, code, check, a, b);
              var backup := if f.backup.None? then Some(content) else f.backup;
              Some(PatchResult(true, PatchFiles(Some(Splice(content, code, check, a, b)), backup)))
  }

  /** The source's own idempotence: once a run has succeeded, every later run
      finds the sentinel, answers True and writes nothing, however the first
      run placed the blocks. */
  lemma {:induction false} AsWrittenIdempotent(f: PatchFiles, code: string, check: string, fuel: nat, later: nat)
    requires Contains(code, Sentinel)
    requires PatchAsWritten(f, code, check, fuel).Some? && PatchAsWritten(f, code, check, fuel).value.ok
    ensures var once := PatchAsWritten(f, code, check, fuel).value.files;
      PatchAsWritten(once, code, check, later) == Some(PatchResult(true, once))
  {
  }

  /** The source's own function: the as-written patch with the source's texts. */
  function AddSecurityAsWritten(f: PatchFiles, fuel: nat): Option<PatchResult> {
    InsertedTextCarriesSentinel();
    PatchAsWritten(f, SecurityCode, SecurityCheck, fuel)
  }

  /** The first newline at or after `start` in `p + "\n" + q` is the one after `p`. */
  lemma {:induction false} NewlineAfter(p: string, q: string, start: nat)
    requires start <= |p| && '\n' !in p[start..]
    ensures Find(p + "\n" + q, "\n", start) == |p|
  {
    var s := p + "\n" + q;
    forall j | start <= j < |p| ensures !OccursAt(s, "\n", j) {
      OccursAtChar(s, '\n', j);
      assert s[j] == p[start..][j - start];
    }
    OccursAtChar(s, '\n', |p|);
    FindIsFirst(s, "\n", start, |p|);
  }

  /** Finding: the loop skips every line that starts with whitespace. Every
      statement of a main block is indented, so the scan runs past the whole
      block. The check then lands after the code it should guard. */
  lemma {:induction false} IndentedMainBlockSkipped(s: string, fuel: nat)
    requires s == MainMarker + "\n    main()\n"
    requires fuel >= 1
    ensures MainCodeStartAsWritten(s, 0, fuel) == Some(|s|)
    ensures MainCodeStart(s, 0) == |MainMarker| + 1
  {
    var body := "    main()";
    MarkerIsOneLine();
    IndentedBody();
    IndentedBlockScan(MainMarker, body, fuel);
    assert s == MainMarker + "\n" + body + "\n";
  }

  lemma {:induction false} MarkerIsOneLine()
    ensures '\n' !in MainMarker
  {
  }

  /** The sample statement of the main block: indented, not blank, one line. */
  lemma {:induction false} IndentedBody()
    ensures var body := "    main()";
      '\n' !in body && |body| > 0 && IsSpace(body[0]) && !AllSpace(body)
  {
    var body := "    main()";
    assert !IsSpace(body[4]);
  }

  /** A marker line followed by one indented line that is not blank: the
      source's scan runs to the end, the corrected one stops at that line. */
  lemma {:induction false} IndentedBlockScan(p: string, body: string, fuel: nat)
    requires '\n' !in p && '\n' !in body
    requires |body| > 0 && IsSpace(body[0]) && !AllSpace(body)
    requires fuel >= 1
    ensures var s := p + "\n" + body + "\n";
      && MainCodeStartAsWritten(s, 0, fuel) == Some(|s|)
      && MainCodeStart(s, 0) == |p| + 1
  {
    SkippedLines(p, body);
    var s := p + "\n" + body + "\n";
    var start := |p| + 1;
    assert ScanAsWritten(s, |s|, fuel - 1) == Some(|s|);
    assert ScanAsWritten(s, start, fuel) == Some(|s|);
    assert SkipBlankLines(s, start) == start;
  }

  /** The line structure of a marker line followed by one indented line. */
  lemma {:induction false} SkippedLines(p: string, body: string)
    requires '\n' !in p && '\n' !in body
    requires |body| > 0 && IsSpace(body[0]) && !AllSpace(body)
    ensures var s := p + "\n" + body + "\n";
      var start := |p| + 1;
      && start < |s| && IsSpace(s[start])
      && NextLineStartAsWritten(s, 0) == start && NextLineStart(s, 0) == start
      && NextLineStartAsWritten(s, start) == |s|
      && !BlankLine(s, start)
  {
    var s := p + "\n" + body + "\n";
    assert s == p + "\n" + (body + "\n");
    FirstLineEnds(p, body + "\n");
    LastLineEnds(p, body);
    assert s[|p| + 1] == s[|p| + 1..|s| - 1][0];
  }

  /** A first line without a newline ends at the first newline. */
  lemma {:induction false} FirstLineEnds(p: string, q: string)
    requires '\n' !in p
    ensures NextLineStartAsWritten(p + "\n" + q, 0) == |p| + 1
    ensures NextLineStart(p + "\n" + q, 0) == |p| + 1
  {
    assert p[0..] == p;
    NewlineAfter(p, q, 0);
  }

  /** A last line `body` closed by a newline: both scans step past the end. */
  lemma {:induction false} LastLineEnds(p: string, body: string)
    requires '\n' !in body
    ensures var s := p + "\n" + body + "\n";
      var start := |p| + 1;
      && NextLineStartAsWritten(s, start) == |s|
      && LineEnd(s, start) == |s| - 1
      && s[start..|s| - 1] == body
  {
    var head := p + "\n" + body;
    var s := head + "\n" + "";
    assert s == p + "\n" + body + "\n";
    assert head[|p| + 1..] == body;
    NewlineAfter(head, "", |p| + 1);
    assert s[..|head|] == head;
    assert s[|p| + 1..|s| - 1] == head[|p| + 1..];
  }

  /** Finding: when the last line is indented and has no newline after it,
      `find` answers -1 at line 95 and the scan restarts at 0. The call is then
      placed before all of the original text, right after the inserted
      function, and the main block stays unguarded. */
  lemma {:induction false} MissingFinalNewlineWraps(s: string, fuel: nat)
    requires s == ImportMarker + "\n" + MainMarker + "\n    main()"
    requires fuel >= 1
    ensures Find(s, MainMarker, 0) == |ImportMarker| + 1
    ensures InsertionPointAsWritten(s) == 0
    ensures MainCodeStartAsWritten(s, |ImportMarker| + 1, fuel) == Some(0)
    ensures MainCodeStart(s, |ImportMarker| + 1) == |ImportMarker| + |MainMarker| + 2
  {
    WrapsMarkerFound();
    assert OccursAt(s, ImportMarker, 0);
    WrapsScan(s, fuel);
  }

  /** The whole patch as written on that text: both insertions go at 0, so
      the call sits in front of every line of the original (see `SpliceAtStart`). */
  lemma {:induction false} WrappedPatchGuardsNothing(code: string, check: string, fuel: nat)
    requires Contains(code, Sentinel)
    requires fuel >= 1
    ensures var s := ImportMarker + "\n" + MainMarker + "\n    main()";
      PatchAsWritten(PatchFiles(Some(s), None), code, check, fuel)
        == Some(PatchResult(true, PatchFiles(Some(Splice(s, code, check, 0, 0)), Some(s))))
  {
    var s := ImportMarker + "\n" + MainMarker + "\n    main()";
    MissingFinalNewlineWraps(s, fuel);
    WrapsSampleUnpatched();
    PatchAsWrittenSplices(s, None, code, check, fuel, 0);
  }

  lemma WrapsSampleUnpatched()
    ensures var s := ImportMarker + "\n" + MainMarker + "\n    main()";
      !Contains(s, Sentinel) && Contains(s, MainMarker)
  {
    var s := ImportMarker + "\n" + MainMarker + "\n    main()";
    assert 'v' !in s;
    FindMissingHead(s, Sentinel, 0);
    WrapsMarkerFound();
  }

  /** When the scan stops at `b`, the patch as written splices at its own
      insertion point and `b`. */
  lemma PatchAsWrittenSplices(content: string, backup: Option<string>, code: string, check: string, fuel: nat, b: nat)
    requires Contains(code, Sentinel)
    requires !Contains(content, Sentinel) && InsertionPointAsWritten(content) != -1
    requires Contains(content, MainMarker)
    requires MainCodeStartAsWritten(content, Find(content, MainMarker, 0), fuel) == Some(b)
    ensures b <= |content|
    ensures PatchAsWritten(PatchFiles(Some(content), backup), code, check, fuel) == Some(PatchResult(true,
      PatchFiles(Some(Splice(content, code, check, InsertionPointAsWritten(content), b)),
                 if backup.None? then Some(content) else backup)))
  {
  }

  /** Both insertions at 0: the code, then the call, then the whole original. */
  lemma SpliceAtStart(content: string, code: string, check: string)
    ensures Splice(content, code, check, 0, 0) == code + check + content
  {
    assert Splice(content, code, check, 0, 0) == [] + code + [] + check + content;
  }

  lemma {:induction false} WrapsMarkerFound()
    ensures var s := ImportMarker + "\n" + MainMarker + "\n    main()";
      Find(s, MainMarker, 0) == |ImportMarker| + 1
  {
    var s := ImportMarker + "\n" + MainMarker + "\n    main()";
    var ms := |ImportMarker| + 1;
    forall j | 0 <= j < ms ensures !OccursAt(s, MainMarker, j) {
      if s[j] == 'i' {
        assert j == 12;
        assert s[j..j + |MainMarker|][1] == s[j + 1];
      } else {
        assert s[j..j + |MainMarker|][0] == s[j];
      }
    }
    assert s[ms..ms + |MainMarker|] == MainMarker;
    FindIsFirst(s, MainMarker, 0, ms);
  }

  lemma {:induction false} WrapsScan(s: string, fuel: nat)
    requires s == ImportMarker + "\n" + MainMarker + "\n    main()"
    requires fuel >= 1
    ensures MainCodeStartAsWritten(s, |ImportMarker| + 1, fuel) == Some(0)
    ensures MainCodeStart(s, |ImportMarker| + 1) == |ImportMarker| + |MainMarker| + 2
  {
    var head := ImportMarker + "\n" + MainMarker;
    var body := "    main()";
    var ms := |ImportMarker| + 1;
    assert head[ms..] == MainMarker;
    MarkerIsOneLine();
    IndentedBody();
    assert !IsSpace(head[0]);
    WrapsGeneric(head, ms, body, fuel);
    assert s == head + "\n" + body;
  }

  /** A marker line and then one indented last line with no newline after it:
      the source's scan wraps to 0, the corrected one stops at that line. */
  lemma {:induction false} WrapsGeneric(head: string, ms: nat, body: string, fuel: nat)
    requires ms <= |head| && '\n' !in head[ms..] && |head| > 0 && !IsSpace(head[0])
    requires '\n' !in body && |body| > 0 && IsSpace(body[0]) && !AllSpace(body)
    requires fuel >= 1
    ensures var s := head + "\n" + body;
      && MainCodeStartAsWritten(s, ms, fuel) == Some(0)
      && MainCodeStart(s, ms) == |head| + 1
  {
    WrapsLines(head, ms, body);
    var s := head + "\n" + body;
    var start := |head| + 1;
    assert ScanAsWritten(s, 0, fuel - 1) == Some(0);
    assert ScanAsWritten(s, start, fuel) == Some(0);
    assert SkipBlankLines(s, start) == start;
  }

  /** The line structure of such a text. */
  lemma {:induction false} WrapsLines(head: string, ms: nat, body: string)
    requires ms <= |head| && '\n' !in head[ms..] && |head| > 0 && !IsSpace(head[0])
    requires '\n' !in body && |body| > 0 && IsSpace(body[0]) && !AllSpace(body)
    ensures var s := head + "\n" + body;
      var start := |head| + 1;
      && start < |s| && IsSpace(s[start]) && !IsSpace(s[0])
      && NextLineStartAsWritten(s, ms) == start && NextLineStart(s, ms) == start
      && NextLineStartAsWritten(s, start) == 0
      && !BlankLine(s, start)
  {
    var s := head + "\n" + body;
    NewlineAfter(head, body, ms);
    var start := |head| + 1;
    assert s[start..] == body;
    assert forall j :: start <= j < |s| ==> s[j] != '\n' by {
      forall j | start <= j < |s| ensures s[j] != '\n' {
        assert s[j] == body[j - start];
      }
    }
    assert s[start] == body[0] && s[0] == head[0];
    assert LineEnd(s, start) == |s|;
    assert s[start..|s|] == body;
  }

  /** Every line of `s` starts with whitespace and the text does not end with a newline. */
  predicate EveryLineIndented(s: string) {
    && |s| > 0 && s[|s| - 1] != '\n'
    && forall p {:trigger LineStart(s, p)} :: 0 <= p < |s| && LineStart(s, p) ==> IsSpace(s[p])
  }

  /** On such a text the loop at lines 94-95 never stops: from any line start
      it moves to the next line start, and from the last line it wraps to 0. */
  lemma {:induction false} ScanNeverEnds(s: string, m: nat, fuel: nat)
    requires EveryLineIndented(s)
    requires m <= |s| && LineStart(s, m)
    ensures ScanAsWritten(s, m, fuel) == None
    decreases fuel
  {
    assert m < |s|;
    if fuel > 0 {
      var n := NextLineStartAsWritten(s, m);
      ScanNeverEnds(s, n, fuel - 1);
    }
  }

  /** Indented lines stay indented when more are put in front. */
  lemma {:induction false} IndentedJoin(p: string, q: string)
    requires |p| > 0 && IsSpace(p[0]) && '\n' !in p
    requires EveryLineIndented(q)
    ensures EveryLineIndented(p + "\n" + q)
  {
    var s := p + "\n" + q;
    assert forall j :: 0 <= j < |p| ==> s[j] == p[j] && p[j] in p;
    forall i | |p| + 1 < i < |s| && LineStart(s, i) ensures IsSpace(s[i]) {
      assert s[i - 1] == q[i - |p| - 2];
      assert LineStart(q, i - |p| - 1);
    }
    assert LineStart(q, 0);
  }

  /** Finding: with every line indented and no final newline, the patch as
      written never finishes, while the corrected patch succeeds. */
  lemma {:induction false} AllIndentedLoopsForever(fuel: nat)
    ensures var s := " " + ImportMarker + "\n " + MainMarker + "\n x";
      && AddSecurityAsWritten(PatchFiles(Some(s), None), fuel) == None
      && AddSecurity(PatchFiles(Some(s), None)).ok
  {
    var s := " " + ImportMarker + "\n " + MainMarker + "\n x";
    AllIndentedSample();
    IndentedPatchLoops(s, fuel);
  }

  /** The sample text of the finding above has the shape that makes the loop spin. */
  lemma {:induction false} AllIndentedSample()
    ensures var s := " " + ImportMarker + "\n " + MainMarker + "\n x";
      && EveryLineIndented(s)
      && !Contains(s, Sentinel) && Contains(s, ImportMarker) && Contains(s, MainMarker)
  {
    AllIndentedShape();
    AllIndentedMarkers();
  }

  lemma {:induction false} AllIndentedShape()
    ensures EveryLineIndented(" " + ImportMarker + "\n " + MainMarker + "\n x")
  {
    var s := " " + ImportMarker + "\n" + (" " + MainMarker + "\n" + " x");
    assert s == " " + ImportMarker + "\n " + MainMarker + "\n x";
    assert EveryLineIndented(" x") by {
      assert forall i :: 0 < i < 2 ==> !LineStart(" x", i);
      assert LineStart(" x", 0);
    }
    assert '\n' !in " " + MainMarker;
    IndentedJoin(" " + MainMarker, " x");
    assert '\n' !in " " + ImportMarker;
    IndentedJoin(" " + ImportMarker, " " + MainMarker + "\n" + " x");
  }

  lemma {:induction false} AllIndentedMarkers()
    ensures var s := " " + ImportMarker + "\n " + MainMarker + "\n x";
      !Contains(s, Sentinel) && Contains(s, ImportMarker) && Contains(s, MainMarker)
  {
    var s := " " + ImportMarker + "\n " + MainMarker + "\n x";
    assert 'v' !in s;
    FindMissingHead(s, Sentinel, 0);
    Middle(" ", ImportMarker, "\n " + MainMarker + "\n x");
    assert s == " " + ImportMarker + ("\n " + MainMarker + "\n x");
    assert OccursAt(s, ImportMarker, 1);
    var head := " " + ImportMarker + "\n ";
    Middle(head, MainMarker, "\n x");
    assert s == head + MainMarker + "\n x";
    assert OccursAt(s, MainMarker, |head|);
  }

  /** Any unpatched text with both markers whose lines are all indented, with no
      final newline, sends the patch as written into an endless loop. */
  lemma {:induction false} IndentedPatchLoops(s: string, fuel: nat)
    requires EveryLineIndented(s)
    requires !Contains(s, Sentinel) && Contains(s, ImportMarker) && Contains(s, MainMarker)
    ensures AddSecurityAsWritten(PatchFiles(Some(s), None), fuel) == None
    ensures AddSecurity(PatchFiles(Some(s), None)).ok
  {
    var m := Find(s, MainMarker, 0);
    var n := NextLineStartAsWritten(s, m);
    ScanNeverEnds(s, n, fuel);
  }

  /** Finding: in the last-resort rule `content.find(line)` looks for the line's
      text, not the line. An empty first code line is "found" at 0, above the
      imports, instead of after the eleventh line. */
  lemma {:induction false} EmptyCodeLineFoundAtZero()
    ensures var lines := seq(11, _ => "import os") + ["", "main()"];
      && InsertionPointAsWritten(JoinLines(lines)) == 0
      && InsertionPoint(JoinLines(lines)) > 0
  {
    var lines := seq(11, _ => "import os") + ["", "main()"];
    var s := JoinLines(lines);
    assert forall k :: 0 <= k < |lines| ==> NoNewline(lines[k]) && '#' !in lines[k] && 'f' !in lines[k];
    SplitJoin(lines);
    JoinLinesAvoids(lines, '#');
    JoinLinesAvoids(lines, 'f');
    FindMissingHead(s, ImportMarker, 0);
    FindMissingHead(s, BytesIOMarker, 0);
    assert IsCodeLine(11, lines[11]);
    assert FirstCodeLine(lines, 0) == Some(11);
    assert OccursAt(s, "", 0);
  }
}

=== FILE: config.dfy ===
/** The loader's configuration store (`LoaderConfig`): a JSON object kept in
    memory and mirrored to `loader_config.json`. On load the defaults are
    updated with whatever the file holds (Python's `dict.update`), and the
    authentication hash is then forced back to the hash of the built-in
    password. `Load` performs that reset on every path, so the persisted copy
    cannot change who gets in; `LoadAsWritten` is the source, where an update
    that raises part-way skips the reset. */
module Config {
  import opened Wrappers

  /** A JSON value as `json.load` produces it (numbers restricted to integers). */
  datatype Json =
    | JNull
    | JBool(b: bool)
    | JNum(n: int)
    | JStr(s: string)
    | JArr(items: seq<Json>)
    | JObj(fields: map<string, Json>)

  /** Python truthiness of a decoded JSON value, as `if value:` tests it. */
  predicate Truthy(v: Json) {
    match v
    case JNull => false
    case JBool(b) => b
    case JNum(n) => n != 0
    case JStr(s) => s != ""
    case JArr(items) => |items| > 0
    case JObj(fields) => |fields| > 0
  }

  /** The password compiled into the loader. */
  const AuthPassword: string := "xyNNet_XOPP^QZKL"

  const LastCheckKey: string := "last_update_check"
  const LastUpdateKey: string := "last_update"
  const CurrentVersionKey: string := "current_version"
  const ChannelKey: string := "update_channel"
  const AutoBackupKey: string := "auto_backup"
  const AuthHashKey: string := "auth_hash"

  /** The version recorded before any update has been installed. */
  const InitialVersion: string := "0.0.0"

  /** The settings object: JSON keys to JSON values. */
  type Settings = map<string, Json>

  /** The configuration file as the loader sees it: absent; present but
      impossible to open or to decode (this includes a file a failed save left
      truncated); or holding a JSON value of any kind. */
  datatype ConfigFile = Missing | Unreadable | Holds(value: Json)

  /** The in-memory settings together with the file that mirrors them. */
  datatype Store = Store(settings: Settings, file: ConfigFile)

  /** The settings a fresh loader starts from; `hash` is SHA-256 as a hex string. */
  function Defaults(hash: string -> string): Settings {
    map[
      LastCheckKey := JNull,
      LastUpdateKey := JNull,
      CurrentVersionKey := JStr(InitialVersion),
      ChannelKey := JStr("stable"),
      AutoBackupKey := JBool(true),
      AuthHashKey := JStr(hash(AuthPassword))
    ]
  }

  /** The store invariant: every default key is present and the authentication
      hash is the hash of the built-in password. */
  predicate Reconciled(s: Settings, hash: string -> string) {
    && Defaults(hash).Keys <= s.Keys
    && s[AuthHashKey] == JStr(hash(AuthPassword))
  }

  /** The defaults satisfy the store invariant. */
  lemma DefaultsReconciled(hash: string -> string)
    ensures Reconciled(Defaults(hash), hash)
    ensures Defaults(hash)[CurrentVersionKey] == JStr(InitialVersion)
  {
  }

  /** `save_config`. A successful write makes the file hold the settings. A
      failed `open` leaves the file as it was. A failure after `open` leaves a
      proper prefix of the `json.dump` text, which lacks the object's closing
      brace, so the next `json.load` raises. Memory never changes. */
  function Save(st: Store, w: WriteOutcome): (r: Store)
    ensures r.settings == st.settings
    ensures w.Written? ==> r.file == Holds(JObj(st.settings))
    ensures w.OpenFailed? ==> r.file == st.file
    ensures w.WriteFailed? ==> r.file == Unreadable
  {
    match w
    case Written => Store(st.settings, Holds(JObj(st.settings)))
    case OpenFailed => st
    case WriteFailed(_) => Store(st.settings, Unreadable)
  }

  // ---------------------------------------------------------------------
  // dict.update

  /** How `dict.update` reads one element of a sequence argument: a pair with
      a string key; a pair whose key is a number, a boolean or null (stored under
      a key no string lookup can reach); or an element that raises. */
  datatype Entry = Pair(key: string, value: Json) | OtherKey | Bad

  /** An element must unpack into exactly two items with a hashable first one.
      A two-element list is such a pair, and so is a two-character string (its
      characters). Numbers, booleans and null are not iterable; lists and
      objects are not hashable keys. */
  function ElementEntry(e: Json): Entry {
    match e
    case JArr(items) =>
      if |items| != 2 then Bad
      else (match items[0]
            case JStr(k) => Pair(k, items[1])
            case JArr(_) => Bad
            case JObj(_) => Bad
            case _ => OtherKey)
    case JStr(t) => if |t| == 2 then Pair([t[0]], JStr([t[1]])) else Bad
    case JObj(fields) => if |fields| == 2 then OtherKey else Bad
    case _ => Bad
  }

  /** Element `e` is a pair that assigns string key `k`. */
  predicate Names(e: Json, k: string) {
    ElementEntry(e).Pair? && ElementEntry(e).key == k
  }

  /** `d.update(items)` for a list: the pairs are applied one after another,
      and the first element that is not a pair raises, keeping what was
      applied before it. The flag says whether the call returned normally. */
  function UpdateSeq(s: Settings, items: seq<Json>): (r: (Settings, bool))
    ensures s.Keys <= r.0.Keys
    ensures r.1 <==> forall i | 0 <= i < |items| :: !ElementEntry(items[i]).Bad?
    ensures forall k :: k in s && (forall i | 0 <= i < |items| :: !Names(items[i], k)) ==> r.0[k] == s[k]
    ensures forall k :: k in r.0 && k !in s ==> exists i | 0 <= i < |items| :: Names(items[i], k)
    decreases |items|
  {
    if |items| == 0 then (s, true)
    else
      var rest := items[1..];
      assert forall i | 1 <= i < |items| :: items[i] == rest[i - 1];
      match ElementEntry(items[0])
      case Bad => (s, false)
      case OtherKey => UpdateSeq(s, rest)
      case Pair(k, v) => UpdateSeq(s[k := v], rest)
  }

  /** The update stops at the first element that is not a pair: the result is
      the update by the elements before it, and the call raises. */
  lemma {:induction false} UpdateStopsAtFirstBad(s: Settings, items: seq<Json>, n: nat)
    requires n < |items| && ElementEntry(items[n]).Bad?
    requires forall i | 0 <= i < n :: !ElementEntry(items[i]).Bad?
    ensures UpdateSeq(s, items) == (UpdateSeq(s, items[..n]).0, false)
    decreases n
  {
    if n > 0 {
      var s1 := match ElementEntry(items[0]) case Pair(k, v) => s[k := v] case _ => s;
      assert items[..n][1..] == items[1..][..n - 1];
      UpdateStopsAtFirstBad(s1, items[1..], n - 1);
    }
  }

  /** A pair applied before any failure, and not overridden by a later pair,
      decides its key's value, whatever follows it. */
  lemma {:induction false} LastPairWins(s: Settings, items: seq<Json>, i: nat, k: string, v: Json)
    requires i < |items| && ElementEntry(items[i]) == Pair(k, v)
    requires forall j | 0 <= j < i :: !ElementEntry(items[j]).Bad?
    requires forall j | i < j < |items| :: !Names(items[j], k)
    ensures k in UpdateSeq(s, items).0 && UpdateSeq(s, items).0[k] == v
    decreases i
  {
    var rest := items[1..];
    assert forall j | 1 <= j < |items| :: items[j] == rest[j - 1];
    if i > 0 {
      var s1 := match ElementEntry(items[0]) case Pair(k0, v0) => s[k0 := v0] case _ => s;
      LastPairWins(s1, rest, i - 1, k, v);
    }
  }

  /** `d.update(value)` for whatever `json.load` returned: an object merges
      all of its keys; a list is read pair by pair; a string is a sequence of
      one-character strings, so any non-empty one raises at its first element;
      numbers, booleans and null are not iterable and raise at once. */
  function Update(s: Settings, v: Json): (r: (Settings, bool))
    ensures s.Keys <= r.0.Keys
    ensures v.JObj? ==>
      && r.1 && r.0.Keys == s.Keys + v.fields.Keys
      && forall k :: k in r.0 ==> r.0[k] == (if k in v.fields then v.fields[k] else s[k])
    ensures v.JStr? ==> r == (s, v.s == "")
    ensures v.JNull? || v.JBool? || v.JNum? ==> r == (s, false)
  {
    match v
    case JObj(fields) => (s + fields, true)
    case JArr(items) => UpdateSeq(s, items)
    case JStr(t) => (s, t == "")
    case _ => (s, false)
  }

  /** The file names key `k`: an object holding it, or a list with a pair for it. */
  predicate Overrides(v: Json, k: string) {
    || (v.JObj? && k in v.fields)
    || (v.JArr? && exists i | 0 <= i < |v.items| :: Names(v.items[i], k))
  }

  // ---------------------------------------------------------------------
  // Loading

  /** `LoaderConfig()` followed by `load_config`, with the hash reset done on
      every path: start from the defaults; a missing file is created holding
      them; an unreadable one is reported and ignored; otherwise the file's
      value updates the defaults (as far as `dict.update` gets) and the
      authentication hash is recomputed afterwards. */
  function Load(hash: string -> string, file: ConfigFile, w: WriteOutcome): (st: Store)
    ensures Reconciled(st.settings, hash)
    ensures file.Holds? && file.value.JObj? ==>
      && st.settings.Keys == Defaults(hash).Keys + file.value.fields.Keys
      && forall k :: k in file.value.fields && k != AuthHashKey ==> st.settings[k] == file.value.fields[k]
    ensures forall k :: k in Defaults(hash) && k != AuthHashKey && !(file.Holds? && Overrides(file.value, k)) ==>
      st.settings[k] == Defaults(hash)[k]
    ensures !file.Holds? ==> st.settings == Defaults(hash)
    ensures file.Missing? ==> st.file == Save(Store(Defaults(hash), Missing), w).file
    ensures !file.Missing? ==> st.file == file
  {
    var defaults := Defaults(hash);
    match file
    case Missing => Save(Store(defaults, Missing), w)
    case Unreadable => Store(defaults, file)
    case Holds(v) =>
      var updated := Update(defaults, v);
      Store(updated.0[AuthHashKey := JStr(hash(AuthPassword))], file)
  }

  /** `load_config` as written: the reset of `auth_hash` sits after
      `update` inside the `try`, so when `update` raises part-way the pairs it
      already applied stay and the reset is skipped. It differs from `Load`
      only in `auth_hash`, and only when the update raised. */
  function LoadAsWritten(hash: string -> string, file: ConfigFile, w: WriteOutcome): (st: Store)
    ensures st.file == Load(hash, file, w).file
    ensures forall k :: k != AuthHashKey ==>
      && (k in st.settings <==> k in Load(hash, file, w).settings)
      && (k in st.settings ==> st.settings[k] == Load(hash, file, w).settings[k])
    ensures !file.Holds? || Update(Defaults(hash), file.value).1 ==> st == Load(hash, file, w)
  {
    var defaults := Defaults(hash);
    match file
    case Missing => Save(Store(defaults, Missing), w)
    case Unreadable => Store(defaults, file)
    case Holds(v) =>
      var updated := Update(defaults, v);
      if updated.1 then Store(updated.0[AuthHashKey := JStr(hash(AuthPassword))], file)
      else Store(updated.0, file)
  }

  /** Finding: a configuration file holding a list whose first element is the
      pair (`auth_hash`, `forged`) and whose second element is not a pair. The
      source keeps the forged hash; the corrected load restores the built-in one. */
  lemma {:induction false} ForgedHashSurvives(hash: string -> string, forged: string, w: WriteOutcome)
    ensures var file := Holds(JArr([JArr([JStr(AuthHashKey), JStr(forged)]), JNum(0)]));
      && LoadAsWritten(hash, file, w).settings[AuthHashKey] == JStr(forged)
      && Load(hash, file, w).settings[AuthHashKey] == JStr(hash(AuthPassword))
  {
    var items := [JArr([JStr(AuthHashKey), JStr(forged)]), JNum(0)];
    assert ElementEntry(items[0]) == Pair(AuthHashKey, JStr(forged));
    assert ElementEntry(items[1]).Bad?;
    LastPairWins(Defaults(hash), items, 0, AuthHashKey, JStr(forged));
    assert !UpdateSeq(Defaults(hash), items).1;
  }

  /** Save then load: a reconciled store written successfully is read back unchanged. */
  lemma {:induction false} SaveLoadRoundTrip(st: Store, hash: string -> string, w: WriteOutcome)
    requires Reconciled(st.settings, hash)
    ensures Load(hash, Save(st, Written).file, w).settings == st.settings
  {
    var d := Defaults(hash);
    var merged := (d + st.settings)[AuthHashKey := JStr(hash(AuthPassword))];
    assert merged.Keys == st.settings.Keys;
    assert forall k :: k in merged ==> merged[k] == st.settings[k];
  }

  /** A save that fails after `open` loses every setting on the next start:
      the truncated file is unreadable, so the loader falls back to the
      defaults, and the recorded version reads "0.0.0" again. */
  lemma {:induction false} TruncatedSaveForgetsSettings(st: Store, hash: string -> string, kept: nat, w: WriteOutcome)
    ensures Load(hash, Save(st, WriteFailed(kept)).file, w).settings == Defaults(hash)
    ensures Load(hash, Save(st, WriteFailed(kept)).file, w).settings[CurrentVersionKey] == JStr(InitialVersion)
  {
  }

  /** `update_last_check`: stamps the check time and persists; nothing else changes. */
  function RecordCheck(st: Store, now: string, w: WriteOutcome): (r: Store)
    ensures r.settings.Keys == st.settings.Keys + {LastCheckKey}
    ensures r.settings[LastCheckKey] == JStr(now)
    ensures forall k :: k in st.settings && k != LastCheckKey ==> r.settings[k] == st.settings[k]
    ensures r.file == Save(Store(r.settings, st.file), w).file
  {
    Save(Store(st.settings[LastCheckKey := JStr(now)], st.file), w)
  }

  /** `update_version`: records the installed version and the time it was
      installed, and persists; nothing else changes. */
  function RecordVersion(st: Store, version: string, now: string, w: WriteOutcome): (r: Store)
    ensures r.settings.Keys == st.settings.Keys + {CurrentVersionKey, LastUpdateKey}
    ensures r.settings[CurrentVersionKey] == JStr(version)
    ensures r.settings[LastUpdateKey] == JStr(now)
    ensures forall k :: k in st.settings && k != CurrentVersionKey && k != LastUpdateKey ==>
      r.settings[k] == st.settings[k]
    ensures r.file == Save(Store(r.settings, st.file), w).file
  {
    var s := st.settings[CurrentVersionKey := JStr(version)][LastUpdateKey := JStr(now)];
    Save(Store(s, st.file), w)
  }

  /** Neither mutation can break the store invariant: in particular the
      authentication hash survives every later save. */
  lemma MutationsKeepReconciled(st: Store, hash: string -> string, version: string, now: string, w: WriteOutcome)
    requires Reconciled(st.settings, hash)
    ensures Reconciled(RecordCheck(st, now, w).settings, hash)
    ensures Reconciled(RecordVersion(st, version, now, w).settings, hash)
  {
  }

  /** Whatever an object-valued file says about `auth_hash`, reloading it
      yields the hash of the built-in password, and every other key comes from
      the file. An object never makes `update` raise, so this holds of the
      source's load as well. */
  lemma {:induction false} ReloadIgnoresTamperedHash(hash: string -> string, tampered: Settings, forged: Json, w: WriteOutcome)
    ensures var file := Holds(JObj(tampered[AuthHashKey := forged]));
      && Load(hash, file, w).settings[AuthHashKey] == JStr(hash(AuthPassword))
      && LoadAsWritten(hash, file, w) == Load(hash, file, w)
      && forall k :: k in tampered && k != AuthHashKey ==> Load(hash, file, w).settings[k] == tampered[k]
  {
  }
}

=== FILE: filetree.dfy ===
/** The installation directory as an abstract file tree, and the three copy
    operations the installer builds on: `shutil.copy2` of one file,
    `shutil.copytree(..., dirs_exist_ok=True)` of a directory, and the
    installer's own pre-install backup and package merge. Every operation
    either succeeds with the new tree or fails (a Python exception); the ways a
    copy fails are type clashes between a file and a directory. */
module FileTree {
  import opened Wrappers
  import opened PyStr

  type Bytes = seq<bv8>

  /** A file with its content, or a directory with its named entries. */
  datatype Node = File(data: Bytes) | Dir(entries: map<string, Node>)

  /** The entries of one directory. */
  type Listing = map<string, Node>

  function Lookup(m: Listing, name: string): Option<Node> {
    if name in m then Some(m[name]) else None
  }

  /** `shutil.copy2(src, dst)` for a file `src` called `name`, where the path
      `dst` currently holds `dst`: a missing or file path is (over)written; an
      existing directory receives the file inside it under its own name, which
      fails if that inner name is itself a directory. The answer is what the
      path `dst` holds afterwards. */
  function PlaceFile(data: Bytes, name: string, dst: Option<Node>): (r: Option<Node>)
    ensures (dst.None? || dst.value.File?) ==> r == Some(File(data))
    ensures dst.Some? && dst.value.Dir? && !(name in dst.value.entries && dst.value.entries[name].Dir?) ==>
      r == Some(Dir(dst.value.entries[name := File(data)]))
    ensures dst.Some? && dst.value.Dir? && name in dst.value.entries && dst.value.entries[name].Dir? ==>
      r == None
  {
    match dst
    case None => Some(File(data))
    case Some(File(_)) => Some(File(data))
    case Some(Dir(m)) =>
      if name in m && m[name].Dir? then None else Some(Dir(m[name := File(data)]))
  }

  /** `shutil.copytree(src, dst, dirs_exist_ok=True)`: the destination directory
      is created if missing (a file there makes it fail), then every entry of
      `src` is copied onto the same name: sub-directories by `copytree`, files
      by `copy2`. Entries of the destination that `src` does not name stay. */
  function CopyTree(src: Listing, dst: Option<Node>): (r: Option<Node>)
    ensures r.Some? ==> r.value.Dir?
    decreases Dir(src), 0
  {
    if dst.Some? && dst.value.File? then None
    else
      var base := if dst.Some? then dst.value.entries else map[];
      if forall k | k in src :: CopyEntry(k, src[k], Lookup(base, k)).Some? then
        Some(Dir(map k | k in base.Keys + src.Keys ::
          if k in src then CopyEntry(k, src[k], Lookup(base, k)).value else base[k]))
      else None
  }

  /** Copying one entry `name` of a source directory onto the destination path of
      the same name. */
  function CopyEntry(name: string, n: Node, dst: Option<Node>): (r: Option<Node>)
    decreases n, 1
  {
    match n
    case File(data) => PlaceFile(data, name, dst)
    case Dir(entries) => CopyTree(entries, dst)
  }

  /** `later` keeps everything `prior` had: a file stays a file (its content may
      change), a directory stays a directory that still holds every one of its
      entries, recursively. Nothing is deleted or replaced by the other kind. */
  predicate Retains(prior: Node, later: Node)
    decreases prior
  {
    match prior
    case File(_) => later.File?
    case Dir(m) =>
      && later.Dir?
      && m.Keys <= later.entries.Keys
      && forall k | k in m :: Retains(m[k], later.entries[k])
  }

  /** Every file of the source node `n` (called `name`) is found, with its
      content, at the corresponding path of `r`, or, where that path was a
      directory, inside it under the file's own name. */
  predicate Delivered(name: string, n: Node, r: Node)
    decreases n
  {
    match n
    case File(data) =>
      r == File(data) || (r.Dir? && name in r.entries && r.entries[name] == File(data))
    case Dir(e) =>
      && r.Dir?
      && e.Keys <= r.entries.Keys
      && forall k | k in e :: Delivered(k, e[k], r.entries[k])
  }

  lemma {:induction false} RetainsRefl(n: Node)
    ensures Retains(n, n)
    decreases n
  {
    match n
    case File(_) =>
    case Dir(m) =>
      forall k | k in m ensures Retains(m[k], m[k]) {
        RetainsRefl(m[k]);
      }
  }

  /** Copying into a path that does not exist reproduces the source exactly:
      a new directory is copied whole. */
  lemma {:induction false} CopyIntoNothing(src: Listing)
    ensures CopyTree(src, None) == Some(Dir(src))
    decreases Dir(src), 0
  {
    forall k | k in src ensures CopyEntry(k, src[k], None) == Some(src[k]) {
      EntryIntoNothing(k, src[k]);
    }
    var r := CopyTree(src, None).value;
    assert r.entries.Keys == src.Keys;
    assert r.entries == src;
  }

  lemma {:induction false} EntryIntoNothing(name: string, n: Node)
    ensures CopyEntry(name, n, None) == Some(n)
    decreases n, 1
  {
    match n
    case File(_) =>
    case Dir(e) => CopyIntoNothing(e);
  }

  /** A successful copy onto an existing node never deletes anything there. */
  lemma {:induction false} CopyRetains(src: Listing, d: Node)
    requires CopyTree(src, Some(d)).Some?
    ensures Retains(d, CopyTree(src, Some(d)).value)
    decreases Dir(src), 0
  {
    var r := CopyTree(src, Some(d)).value;
    var m := d.entries;
    forall k | k in m ensures Retains(m[k], r.entries[k]) {
      if k in src {
        EntryRetains(k, src[k], m[k]);
      } else {
        RetainsRefl(m[k]);
      }
    }
  }

  lemma {:induction false} EntryRetains(name: string, n: Node, d: Node)
    requires CopyEntry(name, n, Some(d)).Some?
    ensures Retains(d, CopyEntry(name, n, Some(d)).value)
    decreases n, 1
  {
    match n
    case File(data) =>
      if d.Dir? {
        var r := CopyEntry(name, n, Some(d)).value;
        forall k | k in d.entries ensures Retains(d.entries[k], r.entries[k]) {
          if k != name { RetainsRefl(d.entries[k]); }
        }
      }
    case Dir(e) => CopyRetains(e, d);
  }

  /** A successful copy delivers every file of the source. */
  lemma {:induction false} CopyDelivers(src: Listing, dst: Option<Node>)
    requires CopyTree(src, dst).Some?
    ensures forall name :: Delivered(name, Dir(src), CopyTree(src, dst).value)
    decreases Dir(src), 0
  {
    var r := CopyTree(src, dst).value;
    var base := if dst.Some? then dst.value.entries else map[];
    forall k | k in src ensures Delivered(k, src[k], r.entries[k]) {
      EntryDelivers(k, src[k], Lookup(base, k));
    }
  }

  lemma {:induction false} EntryDelivers(name: string, n: Node, dst: Option<Node>)
    requires CopyEntry(name, n, dst).Some?
    ensures Delivered(name, n, CopyEntry(name, n, dst).value)
    decreases n, 1
  {
    match n
    case File(_) =>
    case Dir(e) => CopyDelivers(e, dst);
  }

  /** Top-level package entries the installer never copies. */
  const SkipNames: set<string> := {".git", ".github", "LICENSE", "README.md"}

  /** Existing directories the installer never merges into. */
  const KeptDirs: set<string> := {"backups", "venv", "env"}

  /** One round of the installer's top-level loop for a package entry `name`
      whose destination currently holds `dest`: files are copied with `copy2`;
      a directory is copied whole when new, left alone when it is a kept
      directory, and otherwise merged one level down (each sub-entry copied onto
      its namesake), which is what `copytree` onto the existing path does. */
  function MergeEntry(name: string, item: Node, dest: Option<Node>): Option<Node> {
    match item
    case File(data) => PlaceFile(data, name, dest)
    case Dir(entries) =>
      if dest.None? then CopyTree(entries, None)
      else if name in KeptDirs || |entries| == 0 then dest
      else CopyTree(entries, dest)
  }

  /** The package merge: every non-skipped top-level entry of the package `src`
      is merged into the installation `app`; any failing entry fails the merge. */
  function Merge(src: Listing, app: Listing): Option<Listing> {
    if forall k | k in src && k !in SkipNames :: MergeEntry(k, src[k], Lookup(app, k)).Some? then
      Some(map k | k in app.Keys + (src.Keys - SkipNames) ::
        if k in src && k !in SkipNames then MergeEntry(k, src[k], Lookup(app, k)).value else app[k])
    else None
  }

  /** The merge rule, stated entry by entry for a merge that succeeded. */
  lemma {:induction false} MergeRule(src: Listing, app: Listing)
    requires Merge(src, app).Some?
    ensures Merge(src, app).value.Keys == app.Keys + (src.Keys - SkipNames)
    // skip-listed names and names the package lacks are untouched
    ensures forall k | k in app && (k in SkipNames || k !in src) :: Merge(src, app).value[k] == app[k]
    // a package file overwrites its destination unless that is a directory
    ensures forall k | k in src && k !in SkipNames && src[k].File? && (k !in app || app[k].File?) ::
      Merge(src, app).value[k] == src[k]
    // existing kept directories are left as they were
    ensures forall k | k in src && src[k].Dir? && k in app && k in KeptDirs ::
      Merge(src, app).value[k] == app[k]
    // new directories are copied whole
    ensures forall k | k in src && k !in SkipNames && src[k].Dir? && k !in app ::
      Merge(src, app).value[k] == src[k]
    // other existing entries receive every file of a non-empty package directory
    ensures forall k | k in src && k !in SkipNames && src[k].Dir? && k in app && k !in KeptDirs
                       && |src[k].entries| > 0 ::
      Delivered(k, src[k], Merge(src, app).value[k])
    // and an empty package directory changes nothing
    ensures forall k | k in src && src[k].Dir? && k in app && |src[k].entries| == 0 ::
      Merge(src, app).value[k] == app[k]
    // and nothing that was installed is deleted
    ensures forall k | k in app :: Retains(app[k], Merge(src, app).value[k])
  {
    var r := Merge(src, app).value;
    forall k | k in src && k !in SkipNames && src[k].Dir? && k !in app
      ensures r[k] == src[k]
    {
      CopyIntoNothing(src[k].entries);
    }
    forall k | k in src && k !in SkipNames && src[k].Dir? && k in app && k !in KeptDirs
               && |src[k].entries| > 0
      ensures Delivered(k, src[k], r[k])
    {
      CopyDelivers(src[k].entries, Some(app[k]));
    }
    forall k | k in app ensures Retains(app[k], r[k]) {
      if k in src && k !in SkipNames {
        var item := src[k];
        if item.File? {
          EntryRetains(k, item, app[k]);
        } else if k in KeptDirs || |item.entries| == 0 {
          RetainsRefl(app[k]);
        } else {
          CopyRetains(item.entries, app[k]);
        }
      } else {
        RetainsRefl(app[k]);
      }
    }
  }

  /** A package that shares no top-level name with the installation always
      installs, adding exactly its non-skipped entries. */
  lemma {:induction false} MergeFresh(src: Listing, app: Listing)
    requires src.Keys !! app.Keys
    ensures Merge(src, app) == Some(app + (map k | k in src && k !in SkipNames :: src[k]))
  {
    forall k | k in src && k !in SkipNames ensures MergeEntry(k, src[k], None) == Some(src[k]) {
      if src[k].Dir? { CopyIntoNothing(src[k].entries); }
    }
    var expected := app + (map k | k in src && k !in SkipNames :: src[k]);
    assert Merge(src, app).value == expected;
  }

  /** The backups root inside the installation directory. */
  const BackupsDir: string := "backups"

  /** Directories the pre-install backup leaves out. */
  const ExcludedDirs: set<string> := {".git", "__pycache__", "backups", "venv", "env", ".idea"}

  /** The backup filter for one top-level entry: excluded directories and
      hidden files are not copied; everything else, hidden directories
      included, is. */
  predicate BackedUp(name: string, n: Node) {
    && !(n.Dir? && name in ExcludedDirs)
    && !(n.File? && StartsWith(name, "."))
  }

  /** The top-level entries the backup copies. */
  function BackupSelection(app: Listing): (sel: Listing)
    ensures sel.Keys <= app.Keys
    ensures forall k | k in sel :: sel[k] == app[k]
    ensures forall k | k in app :: k in sel <==> BackedUp(k, app[k])
  {
    map k | k in app && BackedUp(k, app[k]) :: app[k]
  }

  /** The pre-install backup: make `backups/<stamp>` (which fails when the
      backups root is gone or is a file, or when the stamp names a file) and
      copy the selected entries into it. */
  function Backup(app: Listing, stamp: string): Option<Listing> {
    if BackupsDir !in app || app[BackupsDir].File? then None
    else
      var root := app[BackupsDir].entries;
      var snapshot := CopyTree(BackupSelection(app), Lookup(root, stamp));
      if snapshot.None? then None
      else Some(app[BackupsDir := Dir(root[stamp := snapshot.value])])
  }

  /** With a fresh stamp the backup always succeeds, the new snapshot holds
      exactly the selected entries, earlier snapshots stay, and nothing outside
      the backups root changes. */
  lemma {:induction false} BackupSnapshot(app: Listing, stamp: string)
    requires BackupsDir in app && app[BackupsDir].Dir?
    requires stamp !in app[BackupsDir].entries
    ensures Backup(app, stamp).Some?
    ensures Backup(app, stamp).value[BackupsDir].entries[stamp] == Dir(BackupSelection(app))
    ensures forall s | s in app[BackupsDir].entries ::
      Backup(app, stamp).value[BackupsDir].entries[s] == app[BackupsDir].entries[s]
    ensures forall k | k in app && k != BackupsDir :: Backup(app, stamp).value[k] == app[k]
    ensures Backup(app, stamp).value.Keys == app.Keys
  {
    CopyIntoNothing(BackupSelection(app));
  }

  /** The snapshot never contains the backups root itself, excluded directories
      or hidden files, so backups do not nest. */
  lemma BackupExcludes(app: Listing, name: string)
    requires name in app
    requires (app[name].Dir? && name in ExcludedDirs) || (app[name].File? && StartsWith(name, "."))
    ensures name !in BackupSelection(app)
  {
  }

  /** A successful backup never deletes anything from the installation. */
  lemma {:induction false} BackupRetains(app: Listing, stamp: string)
    requires Backup(app, stamp).Some?
    ensures Retains(Dir(app), Dir(Backup(app, stamp).value))
  {
    var r := Backup(app, stamp).value;
    var root := app[BackupsDir].entries;
    forall k | k in app ensures Retains(app[k], r[k]) {
      if k == BackupsDir {
        forall s | s in root ensures Retains(root[s], r[k].entries[s]) {
          if s == stamp {
            CopyRetains(BackupSelection(app), root[s]);
          } else {
            RetainsRefl(root[s]);
          }
        }
      } else {
        RetainsRefl(app[k]);
      }
    }
  }
}

=== FILE: main_gate.dfy ===
/** The startup gate of the protected application (`NyxNet_main.main`), and the
    equivalent check that the patcher splices into `chatbox.py`. Both read the
    `--access-token` argument and compare it with the token file; any failure
    prints a message and exits with status 1. */
module MainGate {
  import opened Wrappers
  import opened PyStr
  import opened AccessToken

  /** The option spelling the loader uses when it spawns the application. */
  const TokenFlag: string := "--access-token="

  /** The one command-line argument the loader hands to the child process. */
  function TokenArgument(token: string): string {
    TokenFlag + token
  }

  /** argparse's view of `--access-token=<value>`: the value of the last such
      argument, `None` when the option is absent. */
  function ParseAccessToken(args: seq<string>): (r: Option<string>)
    ensures r.None? <==> forall i :: 0 <= i < |args| ==> !StartsWith(args[i], TokenFlag)
    ensures r.Some? ==> exists i | 0 <= i < |args| ::
      && args[i] == TokenArgument(r.value)
      && forall j | i < j < |args| :: !StartsWith(args[j], TokenFlag)
    decreases |args|
  {
    if |args| == 0 then None
    else if StartsWith(args[|args| - 1], TokenFlag) then
      var last := args[|args| - 1];
      assert last == TokenFlag + last[|TokenFlag|..];
      assert args[|args| - 1] == TokenArgument(last[|TokenFlag|..]);
      Some(last[|TokenFlag|..])
    else
      var r := ParseAccessToken(args[..|args| - 1]);
      ParsePrefix(args, r);
      r
  }

  /** An answer about all but the last argument carries over to the whole
      list when the last argument is not the option. */
  lemma {:induction false} ParsePrefix(args: seq<string>, r: Option<string>)
    requires |args| > 0 && !StartsWith(args[|args| - 1], TokenFlag)
    requires var init := args[..|args| - 1];
      && (r.None? <==> forall i :: 0 <= i < |init| ==> !StartsWith(init[i], TokenFlag))
      && (r.Some? ==> exists i | 0 <= i < |init| ::
        && init[i] == TokenArgument(r.value)
        && forall j | i < j < |init| :: !StartsWith(init[j], TokenFlag))
    ensures r.None? <==> forall i :: 0 <= i < |args| ==> !StartsWith(args[i], TokenFlag)
    ensures r.Some? ==> exists i | 0 <= i < |args| ::
      && args[i] == TokenArgument(r.value)
      && forall j | i < j < |args| :: !StartsWith(args[j], TokenFlag)
  {
    var init := args[..|args| - 1];
    assert forall j | 0 <= j < |init| :: init[j] == args[j];
    if r.Some? {
      var i :| 0 <= i < |init|
        && init[i] == TokenArgument(r.value)
        && forall j | i < j < |init| :: !StartsWith(init[j], TokenFlag);
      assert args[i] == TokenArgument(r.value);
    }
  }

  /** When the option is given twice the later value wins. */
  lemma {:induction false} LaterArgumentWins(first: string, second: string)
    ensures ParseAccessToken([TokenArgument(first), TokenArgument(second)]) == Some(second)
  {
    var args := [TokenArgument(first), TokenArgument(second)];
    assert StartsWith(args[1], TokenFlag);
    assert args[1][|TokenFlag|..] == second;
  }

  /** What the loader passes is what the application reads back. */
  lemma ArgumentRoundTrip(token: string)
    ensures ParseAccessToken([TokenArgument(token)]) == Some(token)
  {
    assert StartsWith(TokenArgument(token), TokenFlag);
    assert TokenArgument(token)[|TokenFlag|..] == token;
  }

  /** The process exit status of a rejected start. */
  const RejectStatus: int := 1

  /** How a start attempt ends: the application proceeds, or prints
      `messages` (one line each, in order) and exits with `status`. */
  datatype Startup = Admitted | Rejected(status: int, messages: seq<string>)

  const MainRejectMessage: string :=
    "Error: Invalid access token. Please use the official NyxNet Loader to start this application."
  const CannotStartMessage: string := "This application cannot be started directly."

  /** `main` up to the point where the application proper starts: a missing or
      empty token, or one that does not verify, is rejected with two lines of
      explanation; the token file is consulted only for a non-empty token. */
  function Gate(token: Option<string>, file: TokenFile, readOk: bool): (r: Startup)
    ensures r.Rejected? ==> r.status == RejectStatus && r.messages == [MainRejectMessage, CannotStartMessage]
  {
    if token.None? || token.value == "" || !Verify(file, readOk, token.value) then
      Rejected(RejectStatus, [MainRejectMessage, CannotStartMessage])
    else
      Admitted
  }

  /** The gate admits exactly the non-empty tokens equal to the stripped file text. */
  lemma GateAdmitsIff(token: Option<string>, file: TokenFile, readOk: bool)
    ensures Gate(token, file, readOk) == Admitted <==>
      token.Some? && token.value != "" && file.Some? && readOk && token.value == Strip(ReadText(file.value))
  {
  }

  /** A token file holding only whitespace (or nothing) strips to the empty
      string, which is exactly the candidate the gate refuses to look up: such a
      file lets nobody in. */
  lemma {:induction false} BlankFileAdmitsNobody(token: Option<string>, stored: string, readOk: bool)
    requires AllSpace(stored)
    ensures Gate(token, Some(stored), readOk).Rejected?
  {
    var text := ReadText(stored);
    assert text == text + [] + [];
    StripPadded(text, [], []);
  }

  const NoTokenMessage: string :=
    "Error: No access token provided. Please use the official NyxNet Loader."
  const BadLaunchMessage: string :=
    "Error: Invalid launch method. Please use the official NyxNet Loader."
  const BadTokenMessage: string :=
    "Error: Invalid access token. Please use the official NyxNet Loader."
  const UnverifiableMessage: string :=
    "Error: Could not verify access token. Please use the official NyxNet Loader."

  /** The `verify_access_token()` the patcher splices into `chatbox.py`, as
      written. The `sys.exit(1)` that follows a mismatch sits inside a `try`
      whose bare `except:` also catches `SystemExit`, so a mismatch prints the
      "could not verify" line as well before the second `sys.exit(1)`. */
  function InjectedCheck(token: Option<string>, file: TokenFile, readOk: bool): (r: Startup)
    ensures r.Rejected? ==> r.status == RejectStatus && |r.messages| >= 1
    ensures r.Rejected? ==> (|r.messages| == 2 <==> token.Some? && token.value != "" && file.Some? && readOk)
  {
    if token.None? || token.value == "" then Rejected(RejectStatus, [NoTokenMessage])
    else if file.None? then Rejected(RejectStatus, [BadLaunchMessage])
    else if !readOk then Rejected(RejectStatus, [UnverifiableMessage])
    else if token.value != Strip(ReadText(file.value)) then Rejected(RejectStatus, [BadTokenMessage, UnverifiableMessage])
    else Admitted
  }

  /** The injected check as evidently intended: one message per reason, as
      when the `except` clause does not catch `SystemExit`. */
  function InjectedCheckIntended(token: Option<string>, file: TokenFile, readOk: bool): (r: Startup)
    ensures r.Rejected? ==> r.status == RejectStatus && |r.messages| == 1
  {
    if token.None? || token.value == "" then Rejected(RejectStatus, [NoTokenMessage])
    else if file.None? then Rejected(RejectStatus, [BadLaunchMessage])
    else if !readOk then Rejected(RejectStatus, [UnverifiableMessage])
    else if token.value != Strip(ReadText(file.value)) then Rejected(RejectStatus, [BadTokenMessage])
    else Admitted
  }

  /** Finding: a wrong token makes the spliced check print two contradictory
      reasons, where one was meant. */
  lemma MismatchPrintsTwoMessages(token: string, stored: string)
    requires token != "" && token != Strip(ReadText(stored))
    ensures InjectedCheck(Some(token), Some(stored), true) ==
      Rejected(RejectStatus, [BadTokenMessage, UnverifiableMessage])
    ensures InjectedCheckIntended(Some(token), Some(stored), true) ==
      Rejected(RejectStatus, [BadTokenMessage])
  {
  }

  /** The spliced check, as written and as intended, and the main gate admit
      exactly the same starts and reject the rest with the same exit status;
      the as-written check prints the intended reason first. */
  lemma InjectedCheckAgreesWithGate(token: Option<string>, file: TokenFile, readOk: bool)
    ensures InjectedCheck(token, file, readOk).Admitted? <==> Gate(token, file, readOk).Admitted?
    ensures InjectedCheckIntended(token, file, readOk).Admitted? <==> Gate(token, file, readOk).Admitted?
    ensures InjectedCheck(token, file, readOk).Rejected? ==>
      && InjectedCheck(token, file, readOk).status == Gate(token, file, readOk).status
      && InjectedCheck(token, file, readOk).messages[..1] == InjectedCheckIntended(token, file, readOk).messages
  {
  }
}

=== FILE: pystr.dfy ===
/** The handful of Python `str` operations the loader and the patcher rely on,
    with Python's own conventions: `find` answers -1 when the needle is absent,
    a slice whose bounds cross is empty, and `split("\n")` always yields at least
    one piece. */
module PyStr {

  /** `c.isspace()` for a one-character string: the characters Python treats as
      whitespace (ASCII blanks, the information separators, and the Unicode
      space separators). */
  predicate IsSpace(c: char) {
    || c == ' '
    || ('\t' <= c <= '\r')
    || ('\U{1c}' <= c <= '\U{1f}')
    || c == '\U{85}' || c == '\U{a0}' || c == '\U{1680}'
    || ('\U{2000}' <= c <= '\U{200a}')
    || c == '\U{2028}' || c == '\U{2029}' || c == '\U{202f}' || c == '\U{205f}' || c == '\U{3000}'
  }

  predicate AllSpace(s: string) {
    forall i :: 0 <= i < |s| ==> IsSpace(s[i])
  }

  /** Neither end of `s` is whitespace: `s.strip()` leaves such a string alone. */
  predicate Stripped(s: string) {
    s == [] || (!IsSpace(s[0]) && !IsSpace(s[|s| - 1]))
  }

  /** `s.lstrip()`: drops the leading whitespace and nothing else. */
  function LStrip(s: string): (r: string)
    ensures |r| <= |s| && r == s[|s| - |r|..]
    ensures AllSpace(s[..|s| - |r|])
    ensures r == [] || !IsSpace(r[0])
    decreases |s|
  {
    if |s| > 0 && IsSpace(s[0]) then
      var r := LStrip(s[1..]);
      assert s[1..][|s| - 1 - |r|..] == s[|s| - |r|..];
      assert s[..|s| - |r|] == [s[0]] + s[1..][..|s| - 1 - |r|];
      r
    else s
  }

  /** `s.rstrip()`: drops the trailing whitespace and nothing else. */
  function RStrip(s: string): (r: string)
    ensures |r| <= |s| && r == s[..|r|]
    ensures AllSpace(s[|r|..])
    ensures r == [] || !IsSpace(r[|r| - 1])
    decreases |s|
  {
    if |s| > 0 && IsSpace(s[|s| - 1]) then
      var r := RStrip(s[..|s| - 1]);
      assert s[..|s| - 1][..|r|] == s[..|r|];
      assert s[|r|..] == s[..|s| - 1][|r|..] + [s[|s| - 1]];
      r
    else s
  }

  /** `s.strip()`. */
  function Strip(s: string): (r: string)
    ensures Stripped(r)
    ensures Padded(s, r)
  {
    var l := LStrip(s);
    var r := RStrip(l);
    StripLocates(s, l, r);
    r
  }

  /** Where the stripped text sits: right after the leading whitespace. */
  lemma {:induction false} StripLocates(s: string, l: string, r: string)
    requires |l| <= |s| && l == s[|s| - |l|..] && (l == [] || !IsSpace(l[0]))
    requires AllSpace(s[..|s| - |l|])
    requires |r| <= |l| && r == l[..|r|] && (r == [] || !IsSpace(r[|r| - 1]))
    requires AllSpace(l[|r|..])
    ensures Stripped(r)
    ensures Padded(s, r)
  {
    var i := |s| - |l|;
    assert l == s[i..];
    assert r == l[..|r|];
    assert s[i..i + |r|] == r by {
      assert s[i..i + |r|] == s[i..][..|r|];
    }
    assert s[i + |r|..] == l[|r|..] by {
      assert s[i + |r|..] == s[i..][|r|..];
    }
    assert Stripped(r) by {
      if r != [] {
        assert r[0] == l[0];
      }
    }
    assert 0 <= i <= |s| - |r| && OccursAt(s, r, i) && AllSpace(s[..i]) && AllSpace(s[i + |r|..]);
  }

  /** Surrounding a stripped text with whitespace on either side does not change
      what `strip()` gives back. */
  lemma {:induction false} StripPadded(p: string, s: string, q: string)
    requires AllSpace(p) && AllSpace(q) && Stripped(s)
    ensures Strip(p + s + q) == s
  {
    if s == [] {
      assert p + s + q == (p + q) + [];
      LStripPadded(p + q, []);
      assert RStrip([]) == [];
    } else {
      assert p + s + q == p + (s + q);
      LStripPadded(p, s + q);
      RStripPadded(s, q);
    }
  }

  lemma {:induction false} LStripPadded(p: string, s: string)
    requires AllSpace(p)
    requires s == [] || !IsSpace(s[0])
    ensures LStrip(p + s) == s
    decreases |p|
  {
    if p == [] {
      assert p + s == s;
    } else {
      assert (p + s)[0] == p[0];
      assert (p + s)[1..] == p[1..] + s;
      LStripPadded(p[1..], s);
    }
  }

  lemma {:induction false} RStripPadded(s: string, q: string)
    requires AllSpace(q)
    requires s == [] || !IsSpace(s[|s| - 1])
    ensures RStrip(s + q) == s
    decreases |q|
  {
    if q == [] {
      assert s + q == s;
    } else {
      var q' := q[..|q| - 1];
      assert (s + q)[|s + q| - 1] == q[|q| - 1];
      assert (s + q)[..|s + q| - 1] == s + q';
      RStripPadded(s, q');
    }
  }

  /** A stripped text is a fixed point of `strip()`. */
  lemma StripStripped(s: string)
    requires Stripped(s)
    ensures Strip(s) == s
  {
    assert [] + s + [] == s;
    StripPadded([], s, []);
  }

  /** What reading a file in Python's default text mode gives back for the
      text `s` it holds: universal newlines turn `"\r\n"` and a lone `'\r'`
      into `'\n'`, so no carriage return survives the read. */
  function ReadText(s: string): (r: string)
    ensures '\r' !in r
    ensures '\r' !in s ==> r == s
    ensures |r| <= |s|
    ensures AllSpace(s) ==> AllSpace(r)
    decreases |s|
  {
    if |s| == 0 then ""
    else if s[0] == '\r' then
      "\n" + ReadText(if 1 < |s| && s[1] == '\n' then s[2..] else s[1..])
    else
      [s[0]] + ReadText(s[1..])
  }

  /** Reading is done piece by piece, provided the cut does not split a
      `"\r\n"` pair. */
  lemma {:induction false} ReadTextAppend(a: string, b: string)
    requires a == [] || a[|a| - 1] != '\r'
    ensures ReadText(a + b) == ReadText(a) + ReadText(b)
    decreases |a|
  {
    if |a| == 0 {
      assert a + b == b;
    } else if a[0] == '\r' {
      assert 2 <= |a| && (a + b)[1] == a[1];
      if a[1] == '\n' {
        assert (a + b)[2..] == a[2..] + b;
        ReadTextAppend(a[2..], b);
      } else {
        assert (a + b)[1..] == a[1..] + b;
        ReadTextAppend(a[1..], b);
      }
    } else {
      assert (a + b)[1..] == a[1..] + b;
      ReadTextAppend(a[1..], b);
    }
  }

  /** `text` holds `s` with only whitespace around it, and `s` has no
      whitespace at either end. */
  predicate Padded(text: string, s: string) {
    exists i | 0 <= i <= |text| - |s| ::
      && OccursAt(text, s, i)
      && AllSpace(text[..i]) && AllSpace(text[i + |s|..])
      && Stripped(s)
  }

  /** `strip()` described without computing it: `text.strip()` is `s` exactly
      when `text` is `s` padded with whitespace. */
  lemma {:induction false} StripIff(text: string, s: string)
    ensures Strip(text) == s <==> Padded(text, s)
  {
    if Padded(text, s) {
      PaddedStrips(text, s);
    }
  }

  /** A stripped text padded with whitespace strips back to itself. */
  lemma {:induction false} PaddedStrips(text: string, s: string)
    requires Padded(text, s)
    ensures Strip(text) == s
  {
    var i :| 0 <= i <= |text| - |s|
      && OccursAt(text, s, i)
      && AllSpace(text[..i]) && AllSpace(text[i + |s|..])
      && Stripped(s);
    ThreeParts(text, i, i + |s|);
    StripPadded(text[..i], s, text[i + |s|..]);
  }

  /** A text is its three slices at two ordered cut points, put back together. */
  lemma {:induction false} ThreeParts(s: string, a: nat, b: nat)
    requires a <= b <= |s|
    ensures s[..a] + s[a..b] + s[b..] == s
  {
    assert s[..a] + s[a..b] == s[..b];
  }

  /** `sub` sits in `s` at position `i`. */
  predicate OccursAt(s: string, sub: string, i: int) {
    0 <= i && i + |sub| <= |s| && s[i..i + |sub|] == sub
  }

  /** `s.find(sub, start)` for a non-negative `start`: the least position at or
      after `start` where `sub` occurs, or -1 when there is none. */
  function Find(s: string, sub: string, start: nat): (r: int)
    ensures r == -1 || (start <= r && OccursAt(s, sub, r))
    ensures r == -1 ==> forall i :: start <= i ==> !OccursAt(s, sub, i)
    ensures r != -1 ==> forall i :: start <= i < r ==> !OccursAt(s, sub, i)
    decreases |s| - start
  {
    if start + |sub| > |s| then -1
    else if s[start..start + |sub|] == sub then start
    else Find(s, sub, start + 1)
  }

  /** Any occurrence not preceded by another one (from `start` on) is what `find` reports. */
  lemma FindIsFirst(s: string, sub: string, start: nat, i: nat)
    requires start <= i && OccursAt(s, sub, i)
    requires forall j :: start <= j < i ==> !OccursAt(s, sub, j)
    ensures Find(s, sub, start) == i
  {
  }

  /** `sub in s`. */
  predicate Contains(s: string, sub: string) {
    Find(s, sub, 0) != -1
  }

  lemma {:induction false} ContainsWithin(a: string, b: string, c: string, sub: string)
    requires Contains(b, sub)
    ensures Contains(a + b + c, sub)
  {
    var k := Find(b, sub, 0);
    var s := a + b + c;
    assert s[|a| + k..|a| + k + |sub|] == b[k..k + |sub|];
    assert OccursAt(s, sub, |a| + k);
  }

  /** An occurrence in `b` is still one once more text follows. */
  lemma {:induction false} ContainsExtended(b: string, c: string, sub: string)
    requires Contains(b, sub)
    ensures Contains(b + c, sub)
  {
    var k := Find(b, sub, 0);
    assert (b + c)[k..k + |sub|] == b[k..k + |sub|];
    assert OccursAt(b + c, sub, k);
  }

  /** The middle part of a three-part concatenation, cut back out. */
  lemma {:induction false} Middle(p: string, m: string, q: string)
    ensures (p + m + q)[|p|..|p| + |m|] == m
  {
  }

  /** A needle whose first character never appears in `s` is not found. */
  lemma FindMissingHead(s: string, sub: string, start: nat)
    requires |sub| > 0 && sub[0] !in s
    ensures Find(s, sub, start) == -1
  {
    forall i | start <= i ensures !OccursAt(s, sub, i) {
      if i + |sub| <= |s| {
        assert s[i..i + |sub|][0] == s[i];
        assert s[i] in s;
      }
    }
  }

  /** `s.startswith(p)`. */
  predicate StartsWith(s: string, p: string) {
    |p| <= |s| && s[..|p|] == p
  }

  /** `s[i:j]` for non-negative bounds: both are clamped to the length and a
      crossed pair gives the empty string. */
  function Slice(s: string, i: nat, j: nat): (r: string)
    ensures i <= j <= |s| ==> r == s[i..j]
    ensures j <= i ==> r == []
    ensures i <= |s| <= j ==> r == s[i..]
  {
    var lo := if i <= |s| then i else |s|;
    var hi := if j <= |s| then j else |s|;
    if lo <= hi then s[lo..hi] else []
  }

  /** `"\n".join(lines)`. */
  function JoinLines(lines: seq<string>): string
    decreases |lines|
  {
    if |lines| == 0 then ""
    else if |lines| == 1 then lines[0]
    else lines[0] + "\n" + JoinLines(lines[1..])
  }

  predicate NoNewline(line: string) {
    '\n' !in line
  }

  /** `s.split("\n")`: the pieces between newlines, at least one of them. */
  function SplitLines(s: string): (lines: seq<string>)
    ensures |lines| >= 1
    ensures forall k :: 0 <= k < |lines| ==> NoNewline(lines[k])
    ensures JoinLines(lines) == s
    decreases |s|
  {
    var k := Find(s, "\n", 0);
    if k == -1 then
      NewlineFree(s, 0, |s|);
      assert s[0..|s|] == s;
      [s]
    else
      NewlineFree(s, 0, k);
      assert s[k..k + 1] == "\n";
      var rest := SplitLines(s[k + 1..]);
      assert s == s[..k] + "\n" + s[k + 1..];
      [s[..k]] + rest
  }

  /** A stretch in which `find` saw no newline holds none. */
  lemma {:induction false} NewlineFree(s: string, lo: nat, hi: nat)
    requires lo <= hi <= |s|
    requires forall i :: lo <= i < hi ==> !OccursAt(s, "\n", i)
    ensures NoNewline(s[lo..hi])
  {
    var t := s[lo..hi];
    forall j | 0 <= j < |t| ensures t[j] != '\n' {
      assert t[j] == s[lo + j];
      assert !OccursAt(s, "\n", lo + j);
      assert s[lo + j..lo + j + 1] == [s[lo + j]];
    }
  }

  /** Splitting a join of newline-free lines gives the lines back. */
  lemma {:induction false} SplitJoin(lines: seq<string>)
    requires |lines| >= 1
    requires forall k :: 0 <= k < |lines| ==> NoNewline(lines[k])
    ensures SplitLines(JoinLines(lines)) == lines
    decreases |lines|
  {
    var s := JoinLines(lines);
    if |lines| == 1 {
      FindMissingHead(s, "\n", 0);
    } else {
      var h := lines[0];
      var rest := JoinLines(lines[1..]);
      JoinHead(h, rest);
      assert s == h + "\n" + rest;
      SplitJoin(lines[1..]);
      assert SplitLines(s) == [h] + SplitLines(rest);
      assert lines == [h] + lines[1..];
    }
  }

  /** In `h + "\n" + rest` with a newline-free `h`, the first newline is the one after `h`. */
  lemma {:induction false} JoinHead(h: string, rest: string)
    requires NoNewline(h)
    ensures Find(h + "\n" + rest, "\n", 0) == |h|
    ensures (h + "\n" + rest)[..|h|] == h && (h + "\n" + rest)[|h| + 1..] == rest
  {
    var s := h + "\n" + rest;
    assert OccursAt(s, "\n", |h|) by { assert s[|h|..|h| + 1] == "\n"; }
    forall j | 0 <= j < |h| ensures !OccursAt(s, "\n", j) {
      assert s[j..j + 1] == [h[j]];
      assert h[j] in h;
    }
    FindIsFirst(s, "\n", 0, |h|);
  }

  /** A character other than a newline appears in a join only if some line holds it. */
  lemma {:induction false} JoinLinesAvoids(lines: seq<string>, c: char)
    requires c != '\n'
    requires forall k :: 0 <= k < |lines| ==> c !in lines[k]
    ensures c !in JoinLines(lines)
    decreases |lines|
  {
    if |lines| > 1 {
      JoinLinesAvoids(lines[1..], c);
      assert forall x :: x in lines[0] + "\n" + JoinLines(lines[1..]) ==>
        x in lines[0] || x == '\n' || x in JoinLines(lines[1..]);
    }
  }

  /** The offset in `"\n".join(lines)` at which line `i` begins. */
  function LineOffset(lines: seq<string>, i: nat): nat
    requires i <= |lines|
  {
    if i == 0 then 0 else LineOffset(lines, i - 1) + |lines[i - 1]| + 1
  }

  /** Line `i` of a joined text starts at `LineOffset(lines, i)`, right after a
      newline (or at the very start), and runs for its own length. */
  lemma {:induction false} LineOffsetLocates(lines: seq<string>, i: nat)
    requires i < |lines|
    ensures LineOffset(lines, i) + |lines[i]| <= |JoinLines(lines)|
    ensures JoinLines(lines)[LineOffset(lines, i)..LineOffset(lines, i) + |lines[i]|] == lines[i]
    ensures LineOffset(lines, i) == 0 || JoinLines(lines)[LineOffset(lines, i) - 1] == '\n'
    decreases i
  {
    var s := JoinLines(lines);
    if |lines| == 1 {
      assert s == lines[0];
    } else {
      var rest := lines[1..];
      var t := JoinLines(rest);
      assert s == lines[0] + "\n" + t;
      if i == 0 {
        assert s[..|lines[0]|] == lines[0];
      } else {
        LineOffsetLocates(rest, i - 1);
        ShiftOffset(lines, i);
        var o := LineOffset(rest, i - 1);
        var base := |lines[0]| + 1;
        assert s[base..] == t;
        assert s[base + o..base + o + |lines[i]|] == t[o..o + |rest[i - 1]|];
        if o == 0 {
          assert s[base - 1] == '\n';
        } else {
          assert s[base + o - 1] == t[o - 1];
        }
      }
    }
  }

  /** `sub` of length one occurs exactly where its character does. */
  lemma OccursAtChar(s: string, c: char, j: int)
    ensures OccursAt(s, [c], j) <==> 0 <= j < |s| && s[j] == c
  {
    if 0 <= j < |s| {
      assert s[j..j + 1] == [s[j]];
    }
  }

  /** How many newlines `s` holds: the number of the line that follows it. */
  function Newlines(s: string): nat
    decreases |s|
  {
    if s == [] then 0 else (if s[|s| - 1] == '\n' then 1 else 0) + Newlines(s[..|s| - 1])
  }

  lemma {:induction false} NewlinesAppend(a: string, b: string)
    ensures Newlines(a + b) == Newlines(a) + Newlines(b)
    decreases |b|
  {
    if b == [] {
      assert a + b == a;
    } else {
      assert (a + b)[..|a + b| - 1] == a + b[..|b| - 1];
      NewlinesAppend(a, b[..|b| - 1]);
    }
  }

  lemma {:induction false} NoNewlineCountsZero(s: string)
    requires NoNewline(s)
    ensures Newlines(s) == 0
    decreases |s|
  {
    if s != [] {
      assert s[|s| - 1] in s;
      assert NoNewline(s[..|s| - 1]) by {
        forall c | c in s[..|s| - 1] ensures c in s { }
      }
      NoNewlineCountsZero(s[..|s| - 1]);
    }
  }

  /** Line `i` of a joined text begins after exactly `i` newlines. */
  lemma {:induction false} LineOffsetCountsLines(lines: seq<string>, i: nat)
    requires i < |lines|
    requires forall k :: 0 <= k < |lines| ==> NoNewline(lines[k])
    ensures LineOffset(lines, i) <= |JoinLines(lines)|
    ensures Newlines(JoinLines(lines)[..LineOffset(lines, i)]) == i
    decreases i
  {
    var s := JoinLines(lines);
    LineOffsetLocates(lines, i);
    if i > 0 {
      var rest := lines[1..];
      var t := JoinLines(rest);
      assert s == lines[0] + "\n" + t;
      LineOffsetCountsLines(rest, i - 1);
      ShiftOffset(lines, i);
      var o := LineOffset(rest, i - 1);
      assert s[..LineOffset(lines, i)] == lines[0] + "\n" + t[..o];
      NewlinesAppend(lines[0] + "\n", t[..o]);
      NewlinesAppend(lines[0], "\n");
      NoNewlineCountsZero(lines[0]);
    }
  }

  /** Dropping the first line shifts every later offset by that line plus its newline. */
  lemma {:induction false} ShiftOffset(lines: seq<string>, i: nat)
    requires 1 <= i <= |lines|
    ensures LineOffset(lines, i) == |lines[0]| + 1 + LineOffset(lines[1..], i - 1)
    decreases i
  {
    if i > 1 {
      ShiftOffset(lines, i - 1);
    }
  }
}

=== FILE: token.dfy ===
/** `AccessTokenManager`: the loader mints a token, writes it to
    `access_token.tmp`, and removes that file again on shutdown or after a
    failed launch. The file is the whole trust boundary: whoever can present its
    text (up to surrounding whitespace) is let in. */
module AccessToken {
  import opened Wrappers
  import opened PyStr

  /** The token file: absent, or holding some text. */
  type TokenFile = Option<string>

  /** What `generate_token` leaves behind: the file, and the token it returned
      (`None` when writing the file raised). */
  datatype Issued = Issued(file: TokenFile, token: Option<string>)

  /** `generate_token`. The token itself is a SHA-256 hex digest of random,
      time and uuid material, so it arrives here as the input `token`; `w` says
      how writing the file ended. A failed `open` leaves the file as it was; a
      failure after `open` leaves the part of the token that reached the file.
      Either failure returns no token. */
  function Generate(file: TokenFile, token: string, w: WriteOutcome): (r: Issued)
    ensures w.Written? <==> r.token.Some?
    ensures r.token.Some? ==> r.file == Some(token) && r.token.value == token
    ensures w.OpenFailed? ==> r.file == file
    ensures w.WriteFailed? ==> r.file.Some? && r.file.value <= token
  {
    match w
    case Written => Issued(Some(token), Some(token))
    case OpenFailed => Issued(file, None)
    case WriteFailed(kept) => Issued(Some(token[..if kept < |token| then kept else |token|]), None)
  }

  /** A write cut short leaves a file that does not admit the token the
      loader minted, so the truncated file is useless to the child it was meant for. */
  lemma {:induction false} TruncatedTokenRejected(file: TokenFile, token: string, kept: nat, readOk: bool)
    requires kept < |token|
    ensures !Verify(Generate(file, token, WriteFailed(kept)).file, readOk, token)
  {
    var stored := token[..kept];
    var r := Strip(stored);
    assert |r| <= |stored|;
  }

  /** `cleanup_token`: removes the file if it is there; a failed removal is
      swallowed and leaves the file in place. */
  function Cleanup(file: TokenFile, removeOk: bool): (r: TokenFile)
    ensures r == None || r == file
    ensures removeOk ==> r == None
    ensures file == None ==> r == None
  {
    if file.Some? && removeOk then None else if file.Some? then file else None
  }

  /** Removing the token twice is the same as removing it once, and a second
      attempt never brings back a file the first one removed. */
  lemma CleanupIdempotent(file: TokenFile, first: bool, second: bool)
    ensures Cleanup(Cleanup(file, true), second) == Cleanup(file, true)
    ensures Cleanup(Cleanup(file, first), true) == Cleanup(file, true)
  {
  }

  /** `verify_access_token(provided)` (NyxNet_main.py): false when the file is
      absent or reading it raises, otherwise plain equality with the file's
      text, read in text mode, after `strip()`. */
  function Verify(file: TokenFile, readOk: bool, provided: string): (r: bool)
    ensures r ==> file.Some? && readOk
    ensures r ==> Stripped(provided) && |provided| <= |file.value|
  {
    file.Some? && readOk && provided == Strip(ReadText(file.value))
  }

  /** An independent description of what `Verify` accepts: the file holds the
      candidate with nothing but whitespace around it, and the candidate has no
      whitespace at either end. */
  lemma {:induction false} VerifyIff(stored: string, provided: string)
    ensures Verify(Some(stored), true, provided) <==> Padded(ReadText(stored), provided)
  {
    StripIff(ReadText(stored), provided);
  }

  /** No carriage return survives the text-mode read, so a token holding one
      never verifies, whatever the file holds; in particular not after the
      loader wrote that very token. */
  lemma CarriageReturnTokenRejected(file: TokenFile, readOk: bool, provided: string)
    requires '\r' in provided
    ensures !Verify(file, readOk, provided)
  {
  }

  /** Without a token file nothing verifies, whatever is presented. */
  lemma AbsentFileRejects(readOk: bool, provided: string)
    ensures !Verify(None, readOk, provided)
  {
  }

  /** A read failure is reported as a rejection, not raised. */
  lemma UnreadableFileRejects(file: TokenFile, provided: string)
    ensures !Verify(file, false, provided)
  {
  }

  /** Write then verify: a freshly written token (a hex digest, so without
      surrounding whitespace or carriage returns) verifies while the file stands. */
  lemma {:induction false} WrittenTokenVerifies(file: TokenFile, token: string)
    requires Stripped(token) && '\r' !in token
    ensures Verify(Generate(file, token, Written).file, true, token)
  {
    StripStripped(token);
  }

  /** The comparison survives whitespace the file may have picked up after the token. */
  lemma {:induction false} PaddedTokenVerifies(token: string, pad: string)
    requires Stripped(token) && '\r' !in token && AllSpace(pad)
    ensures Verify(Some(token + pad), true, token)
  {
    ReadTextAppend(token, pad);
    var text := token + ReadText(pad);
    assert text == [] + token + ReadText(pad);
    StripPadded([], token, ReadText(pad));
  }

  /** Revoke then verify: once `cleanup_token` has removed the file, the token
      it held no longer verifies. */
  lemma RevokedTokenRejected(file: TokenFile, token: string, readOk: bool)
    ensures !Verify(Cleanup(Generate(file, token, Written).file, true), readOk, token)
  {
  }
}

=== FILE: updater.dfy ===
/** The `Updater`: password check, update check, package install and launch,
    over an explicit loader state. Network replies, archive extraction, the
    freshly minted token, timestamps and file-system outcomes arrive as inputs;
    SHA-256 is the parameter `hash`. */
module Updater {
  import opened Wrappers
  import opened PyStr
  import opened Config
  import opened AccessToken
  import opened FileTree
  import opened MainGate

  /** The loader's state: its configuration store, whether the operator has
      logged in, the installation directory, and the token file. */
  datatype Loader = Loader(store: Store, authenticated: bool, app: Listing, token: TokenFile)

  /** `Updater()`: load the configuration, with the corrected `Load`; nobody
      is logged in yet. */
  function Start(hash: string -> string, file: ConfigFile, w: WriteOutcome, app: Listing, token: TokenFile): (l: Loader)
    ensures Reconciled(l.store.settings, hash)
    ensures !l.authenticated
  {
    Loader(Load(hash, file, w), false, app, token)
  }

  /** `authenticate`: the hash of the candidate against the stored hash. */
  function Authenticate(st: Store, hash: string -> string, password: string): bool
    requires AuthHashKey in st.settings
  {
    JStr(hash(password)) == st.settings[AuthHashKey]
  }

  /** On a reconciled store the password check is exactly a comparison with the
      hash of the built-in password, whatever the configuration file said. */
  lemma AuthenticateIff(st: Store, hash: string -> string, password: string)
    requires Reconciled(st.settings, hash)
    ensures Authenticate(st, hash, password) <==> hash(password) == hash(AuthPassword)
  {
  }

  /** With an injective hash and the corrected `Load`, only the built-in
      password gets in, whatever the configuration file held. */
  lemma {:induction false} OnlyThePasswordGetsIn(hash: string -> string, file: ConfigFile, w: WriteOutcome, password: string)
    requires forall a, b :: hash(a) == hash(b) ==> a == b
    ensures Authenticate(Load(hash, file, w), hash, password) <==> password == AuthPassword
  {
    AuthenticateIff(Load(hash, file, w), hash, password);
  }

  /** Finding: with the source's load, a configuration file holding
      `[["auth_hash", <hash of p>], 0]` lets the password `p` in, whatever
      `p` is; the corrected load turns it away. */
  lemma {:induction false} ForgedConfigAdmits(hash: string -> string, password: string, w: WriteOutcome)
    requires forall a, b :: hash(a) == hash(b) ==> a == b
    requires password != AuthPassword
    ensures var file := Holds(JArr([JArr([JStr(AuthHashKey), JStr(hash(password))]), JNum(0)]));
      && Authenticate(LoadAsWritten(hash, file, w), hash, password)
      && !Authenticate(Load(hash, file, w), hash, password)
  {
    var file := Holds(JArr([JArr([JStr(AuthHashKey), JStr(hash(password))]), JNum(0)]));
    ForgedHashSurvives(hash, hash(password), w);
    OnlyThePasswordGetsIn(hash, file, w, password);
  }

  /** The login button: an empty entry is refused without a check; a password
      that authenticates logs the operator in; a wrong one changes nothing. */
  function Login(l: Loader, hash: string -> string, password: string): (r: Loader)
    requires AuthHashKey in l.store.settings
    ensures r.store == l.store && r.app == l.app && r.token == l.token
    ensures password == "" ==> r == l
    ensures r.authenticated <==> l.authenticated || (password != "" && Authenticate(l.store, hash, password))
  {
    if password == "" then l
    else if Authenticate(l.store, hash, password) then l.(authenticated := true)
    else l
  }

  /** An HTTP reply: the status code and the decoded body, where decoding
      (`.json()`, or extracting the downloaded archive) may raise. */
  datatype Response<T> = Response(status: int, body: Call<T>)

  /** The fields of the latest-commit reply the loader reads. */
  datatype CommitInfo = CommitInfo(sha: string, date: string, message: string, author: string)

  /** The update descriptor handed from the check to the installer. */
  datatype UpdateDetails = UpdateDetails(version: string, date: string, message: string, author: string, downloadUrl: string)

  /** What `check_for_updates` returns. */
  datatype CheckResult = CheckResult(available: bool, message: string, details: Option<UpdateDetails>)

  /** Versions are the first seven characters of a commit SHA. */
  const ShortShaLength: nat := 7

  const DownloadUrl: string := "https://github.com/Hacker-Csec/NyxNet/archive/refs/heads/main.zip"

  const CheckErrorPrefix: string := "Error checking for updates: "

  /** `str(KeyError(key))`: the key in quotes. */
  function KeyErrorText(key: string): string {
    "'" + key + "'"
  }

  function CheckFailed(message: string): CheckResult {
    CheckResult(false, message, None)
  }

  /** The decision after both replies have come back, against the stored version. */
  function CompareVersions(settings: Settings, commit: Response<CommitInfo>): (r: CheckResult)
    ensures r.available <==> r.details.Some?
    ensures r.available ==> commit.status == 200 && commit.body.Returned?
  {
    if commit.status != 200 then CheckFailed("Failed to get latest version info")
    else match commit.body
      case Raised(e) => CheckFailed(CheckErrorPrefix + e)
      case Returned(info) =>
        var latest := Slice(info.sha, 0, ShortShaLength);
        if CurrentVersionKey !in settings then CheckFailed(CheckErrorPrefix + KeyErrorText(CurrentVersionKey))
        else if JStr(latest) == settings[CurrentVersionKey] then CheckFailed("NyxNet is up to date")
        else CheckResult(true, "Update available",
                         Some(UpdateDetails(latest, info.date, info.message, info.author, DownloadUrl)))
  }

  /** `check_for_updates`: first stamps the check time (whatever happens next),
      then asks for the repository and for its latest commit; any reply other
      than 200, and any exception, reports no update. */
  function CheckForUpdates(st: Store, now: string, w: WriteOutcome,
                           repo: Call<Response<()>>, commit: Call<Response<CommitInfo>>): (r: (Store, CheckResult))
    ensures r.0 == RecordCheck(st, now, w)
    ensures r.1.available <==> r.1.details.Some?
    ensures repo.Returned? && repo.value.status != 200 ==>
      r.1 == CheckResult(false, "Failed to connect to update server", None)
    ensures r.1.available ==>
      && repo.Returned? && repo.value.status == 200 && repo.value.body.Returned?
      && commit.Returned? && commit.value.status == 200 && commit.value.body.Returned?
      && r.1.details.value.version == Slice(commit.value.body.value.sha, 0, ShortShaLength)
      && |r.1.details.value.version| <= ShortShaLength
      && CurrentVersionKey in st.settings
      && JStr(r.1.details.value.version) != st.settings[CurrentVersionKey]
  {
    var stamped := RecordCheck(st, now, w);
    var result :=
      match repo
      case Raised(e) => CheckFailed(CheckErrorPrefix + e)
      case Returned(reply) =>
        if reply.status != 200 then CheckFailed("Failed to connect to update server")
        else match reply.body
          case Raised(e) => CheckFailed(CheckErrorPrefix + e)
          case Returned(_) =>
            match commit
            case Raised(e) => CheckFailed(CheckErrorPrefix + e)
            case Returned(c) => CompareVersions(stamped.settings, c);
    (stamped, result)
  }

  /** With both replies in, an update is reported exactly when the seven-character
      prefix of the SHA differs from the stored version, and the descriptor then
      carries that prefix and the commit's metadata verbatim. */
  lemma UpdateReportedIff(st: Store, hash: string -> string, now: string, w: WriteOutcome, info: CommitInfo)
    requires Reconciled(st.settings, hash)
    ensures var r := CheckForUpdates(st, now, w, Returned(Response(200, Returned(()))),
                                     Returned(Response(200, Returned(info)))).1;
      && (r.available <==> JStr(Slice(info.sha, 0, ShortShaLength)) != st.settings[CurrentVersionKey])
      && (r.available ==> r.details == Some(UpdateDetails(Slice(info.sha, 0, ShortShaLength),
                                                          info.date, info.message, info.author, DownloadUrl)))
      && (!r.available ==> r == CheckResult(false, "NyxNet is up to date", None))
  {
  }

  /** Checking never changes the recorded version, so a second check against an
      unchanged remote reaches the same answer, and each one stamps its own time. */
  lemma {:induction false} RecheckIsStable(st: Store, hash: string -> string, t1: string, t2: string, w: WriteOutcome,
                                           repo: Call<Response<()>>, commit: Call<Response<CommitInfo>>)
    requires Reconciled(st.settings, hash)
    ensures var first := CheckForUpdates(st, t1, w, repo, commit);
            var second := CheckForUpdates(first.0, t2, w, repo, commit);
      && second.1 == first.1
      && first.0.settings[LastCheckKey] == JStr(t1)
      && second.0.settings[LastCheckKey] == JStr(t2)
  {
    var first := CheckForUpdates(st, t1, w, repo, commit);
    var s1 := first.0.settings;
    var s2 := RecordCheck(first.0, t2, w).settings;
    assert s1[CurrentVersionKey] == st.settings[CurrentVersionKey];
    assert s2[CurrentVersionKey] == s1[CurrentVersionKey];
  }

  /** A fresh installation (no configuration file) sees any commit whose SHA
      starts differently from "0.0.0" as an update, versioned by its prefix. */
  lemma FirstCheckScenario(hash: string -> string, now: string)
    ensures var st := Load(hash, Missing, Written);
            var info := CommitInfo("abc1234567", "2024-01-01T00:00:00Z", "msg", "dev");
            var r := CheckForUpdates(st, now, Written, Returned(Response(200, Returned(()))),
                                     Returned(Response(200, Returned(info)))).1;
      && r.available && r.message == "Update available"
      && r.details.value.version == "abc1234"
  {
    var st := Load(hash, Missing, Written);
    assert st.settings[CurrentVersionKey] == JStr(InitialVersion);
    assert Slice("abc1234567", 0, 7) == "abc1234";
  }

  const InstallErrorPrefix: string := "Error during update installation: "

  /** The outcomes the installer depends on but cannot see: the download reply
      (whose body is the extracted archive's top-level listing, in directory
      order), the backup directory's timestamp name, the text of a file-system
      exception, the clock, and how saving the configuration ends. */
  datatype InstallIo = InstallIo(download: Call<Response<seq<Node>>>, stamp: string,
                                 fsError: string, now: string, save: WriteOutcome)

  /** The first directory of the extracted archive, if there is one. */
  function FirstFolder(listing: seq<Node>): (r: Option<Listing>)
    ensures r.Some? <==> exists i | 0 <= i < |listing| :: listing[i].Dir?
    ensures r.Some? ==> exists i | 0 <= i < |listing| ::
      listing[i] == Dir(r.value) && forall j | 0 <= j < i :: listing[j].File?
    decreases |listing|
  {
    if |listing| == 0 then None
    else if listing[0].Dir? then Some(listing[0].entries)
    else
      var r := FirstFolder(listing[1..]);
      assert forall i | 1 <= i < |listing| :: listing[i] == listing[1..][i - 1];
      r
  }

  /** `download_update`: refuses unless logged in; otherwise downloads and
      extracts the package, takes the backup when `auto_backup` is set, merges the
      package's first folder into the installation, and only then records the
      new version. */
  function DownloadUpdate(l: Loader, details: UpdateDetails, io: InstallIo): (r: (Loader, Status))
    ensures !l.authenticated ==> r == (l, Status(false, "Authentication required"))
    ensures r.0.authenticated == l.authenticated && r.0.token == l.token
    ensures r.1.ok ==> r.0.store == RecordVersion(l.store, details.version, io.now, io.save)
    ensures !r.1.ok ==> r.0.store == l.store
    ensures r.1.ok ==> l.authenticated && io.download.Returned? && io.download.value.status == 200
    ensures r.1.ok ==>
      && io.download.value.body.Returned?
      && FirstFolder(io.download.value.body.value).Some?
      && AutoBackupKey in l.store.settings
      && var src := FirstFolder(io.download.value.body.value).value;
         var backedUp := if Truthy(l.store.settings[AutoBackupKey]) then Backup(l.app, io.stamp) else Some(l.app);
         backedUp.Some? && Merge(src, backedUp.value) == Some(r.0.app)
    ensures !r.1.ok ==>
      || r.0.app == l.app
      || (AutoBackupKey in l.store.settings && Truthy(l.store.settings[AutoBackupKey])
          && Backup(l.app, io.stamp) == Some(r.0.app))
  {
    if !l.authenticated then (l, Status(false, "Authentication required"))
    else match io.download
      case Raised(e) => (l, Status(false, InstallErrorPrefix + e))
      case Returned(reply) =>
        if reply.status != 200 then (l, Status(false, "Failed to download update package"))
        else match reply.body
          case Raised(e) => (l, Status(false, InstallErrorPrefix + e))
          case Returned(listing) =>
            match FirstFolder(listing)
            case None => (l, Status(false, "No folders found in the update package"))
            case Some(src) =>
              if AutoBackupKey !in l.store.settings then
                (l, Status(false, InstallErrorPrefix + KeyErrorText(AutoBackupKey)))
              else
                var backedUp := if Truthy(l.store.settings[AutoBackupKey]) then Backup(l.app, io.stamp) else Some(l.app);
                match backedUp
                case None => (l, Status(false, InstallErrorPrefix + io.fsError))
                case Some(app1) =>
                  match Merge(src, app1)
                  case None => (l.(app := app1), Status(false, InstallErrorPrefix + io.fsError))
                  case Some(app2) =>
                    var store := RecordVersion(l.store, details.version, io.now, io.save);
                    (l.(app := app2, store := store), Status(true, "Update installed successfully"))
  }

  /** An install attempt never deletes anything from the installation, whether
      it succeeds or fails, and a logged-out attempt touches nothing at all. */
  lemma {:induction false} InstallNeverDeletes(l: Loader, details: UpdateDetails, io: InstallIo)
    ensures Retains(Dir(l.app), Dir(DownloadUpdate(l, details, io).0.app))
  {
    var r := DownloadUpdate(l, details, io).0;
    if r.app == l.app {
      RetainsRefl(Dir(l.app));
    } else {
      var listing := io.download.value.body.value;
      var src := FirstFolder(listing).value;
      var app1 := if Truthy(l.store.settings[AutoBackupKey]) then Backup(l.app, io.stamp).value else l.app;
      if Truthy(l.store.settings[AutoBackupKey]) {
        BackupRetains(l.app, io.stamp);
      } else {
        RetainsRefl(Dir(l.app));
      }
      if Merge(src, app1).Some? {
        MergeRule(src, app1);
        RetainsTrans(Dir(l.app), Dir(app1), Dir(Merge(src, app1).value));
      }
    }
  }

  /** What a successful install leaves in the installation directory, outside
      the backups root: every name stays, every non-skipped top-level name of
      the package arrives, a top-level package file replaces a missing entry or
      a file, and names the package skips or lacks keep their content. */
  lemma {:induction false} InstallDeliversPackage(l: Loader, details: UpdateDetails, io: InstallIo)
    requires DownloadUpdate(l, details, io).1.ok
    ensures var src := FirstFolder(io.download.value.body.value).value;
            var after := DownloadUpdate(l, details, io).0.app;
      && l.app.Keys + (src.Keys - SkipNames) <= after.Keys
      && (forall k | k in src && k !in SkipNames && k != BackupsDir && src[k].File? && (k !in l.app || l.app[k].File?) ::
            after[k] == src[k])
      && (forall k | k in l.app && k != BackupsDir && (k in SkipNames || k !in src) :: after[k] == l.app[k])
  {
    var src := FirstFolder(io.download.value.body.value).value;
    var after := DownloadUpdate(l, details, io).0.app;
    var app1 := if Truthy(l.store.settings[AutoBackupKey]) then Backup(l.app, io.stamp).value else l.app;
    assert app1.Keys == l.app.Keys;
    assert forall k | k in l.app && k != BackupsDir :: app1[k] == l.app[k];
    MergeRule(src, app1);
  }

  lemma {:induction false} RetainsTrans(a: Node, b: Node, c: Node)
    requires Retains(a, b) && Retains(b, c)
    ensures Retains(a, c)
    decreases a
  {
    match a
    case File(_) =>
    case Dir(m) =>
      forall k | k in m ensures Retains(m[k], c.entries[k]) {
        RetainsTrans(m[k], b.entries[k], c.entries[k]);
      }
  }

  /** A successful install records the descriptor's version, so the next check
      against the same commit reports no update. */
  lemma {:induction false} InstalledVersionIsCurrent(l: Loader, hash: string -> string, info: CommitInfo,
                                                     io: InstallIo, now: string)
    requires Reconciled(l.store.settings, hash)
    requires var d := UpdateDetails(Slice(info.sha, 0, ShortShaLength), info.date, info.message, info.author, DownloadUrl);
             DownloadUpdate(l, d, io).1.ok
    ensures var d := UpdateDetails(Slice(info.sha, 0, ShortShaLength), info.date, info.message, info.author, DownloadUrl);
            var after := DownloadUpdate(l, d, io).0.store;
            !CheckForUpdates(after, now, Written, Returned(Response(200, Returned(()))),
                             Returned(Response(200, Returned(info)))).1.available
  {
    var d := UpdateDetails(Slice(info.sha, 0, ShortShaLength), info.date, info.message, info.author, DownloadUrl);
    var after := DownloadUpdate(l, d, io).0.store;
    assert after.settings[CurrentVersionKey] == JStr(d.version);
    MutationsKeepReconciled(l.store, hash, d.version, io.now, io.save);
    UpdateReportedIff(after, hash, now, Written, info);
  }

  /** The main executable's name in the installation directory. */
  const MainExe: string := "NyxNet.exe"

  /** The outcomes launching depends on: the minted token, how writing the
      token file ends, whether spawning the process raises, and whether the
      clean-up removal succeeds. */
  datatype LaunchIo = LaunchIo(token: string, write: WriteOutcome, spawn: Call<()>, removeOk: bool)

  /** What a launch attempt leaves: the loader, the status, and the command line
      of the spawned process, if one was spawned. */
  datatype Launched = Launched(loader: Loader, status: Status, spawned: Option<seq<string>>)

  const LaunchErrorPrefix: string := "Error launching NyxNet: "

  /** `launch_main_application`. */
  function Launch(l: Loader, io: LaunchIo): (r: Launched)
    ensures r.loader.store == l.store && r.loader.app == l.app && r.loader.authenticated == l.authenticated
    ensures r.status.ok <==> r.spawned.Some?
    ensures (!l.authenticated || MainExe !in l.app) ==> r == Launched(l, Status(false, r.status.message), None)
    ensures !io.write.Written? ==> r.spawned.None?
    ensures io.write.OpenFailed? ==> r.loader.token == l.token
    ensures l.authenticated && MainExe in l.app && io.write.WriteFailed? ==>
      && r.status == Status(false, "Failed to generate access token")
      && r.loader.token.Some? && r.loader.token.value <= io.token
    ensures r.status.ok ==> r.loader.token == Some(io.token) && io.token != ""
                            && r.spawned == Some([MainExe, TokenArgument(io.token)])
    ensures l.authenticated && MainExe in l.app && io.write.Written? && io.token != "" && io.spawn.Raised? ==>
      !r.status.ok && r.loader.token == Cleanup(Some(io.token), io.removeOk)
  {
    if !l.authenticated then Launched(l, Status(false, "Authentication required"), None)
    else if MainExe !in l.app then Launched(l, Status(false, "NyxNet.exe not found"), None)
    else
      var issued := Generate(l.token, io.token, io.write);
      var l1 := l.(token := issued.file);
      if issued.token.None? || issued.token.value == "" then
        Launched(l1, Status(false, "Failed to generate access token"), None)
      else match io.spawn
        case Raised(e) =>
          Launched(l.(token := Cleanup(issued.file, io.removeOk)), Status(false, LaunchErrorPrefix + e), None)
        case Returned(_) =>
          Launched(l1, Status(true, "NyxNet launched successfully"), Some([MainExe, TokenArgument(io.token)]))
  }

  /** The loader's close handler removes the token file. */
  function Shutdown(l: Loader, removeOk: bool): (r: Loader)
    ensures removeOk ==> r.token == None
    ensures r.store == l.store && r.app == l.app
  {
    l.(token := Cleanup(l.token, removeOk))
  }

  /** End to end: the process a successful launch spawns is admitted by the main
      application's gate for as long as the token file stands. */
  lemma {:induction false} LaunchedChildIsAdmitted(l: Loader, io: LaunchIo)
    requires Launch(l, io).status.ok
    requires Stripped(io.token) && '\r' !in io.token
    ensures var r := Launch(l, io);
            Gate(ParseAccessToken(r.spawned.value[1..]), r.loader.token, true) == Admitted
  {
    var r := Launch(l, io);
    assert r.spawned == Some([MainExe, TokenArgument(io.token)]);
    assert r.loader.token == Some(io.token);
    assert r.spawned.value[1..] == [TokenArgument(io.token)];
    ArgumentRoundTrip(io.token);
    StripStripped(io.token);
    assert Verify(Some(io.token), true, io.token);
  }

  /** Once the loader has shut down and removed the token file, the same command
      line is turned away. */
  lemma {:induction false} ShutdownRevokesLaunch(l: Loader, io: LaunchIo, readOk: bool)
    requires Launch(l, io).status.ok
    ensures var r := Launch(l, io);
            Gate(ParseAccessToken(r.spawned.value[1..]), Shutdown(r.loader, true).token, readOk).Rejected?
  {
    var r := Launch(l, io);
    assert Shutdown(r.loader, true).token == None;
  }
}

=== FILE: wrappers.dfy ===
/** Small failure-carrying datatypes shared by the loader modules. */
module Wrappers {

  /** The conventional optional value; it also models a file that may be absent. */
  datatype Option<+T> = None | Some(value: T)

  /** The outcome of a Python call that either returns a value or raises.
      The payload of `Raised` is the text `str(e)` of the exception, which the
      source interpolates into its operator-facing messages. */
  datatype Call<+T> = Raised(error: string) | Returned(value: T)

  /** How writing a file with `open(path, "w")` ends. `open` empties the file
      before anything is written, so a failure after it leaves only the first
      `kept` characters behind; a failed `open` leaves the file as it was. */
  datatype WriteOutcome = Written | OpenFailed | WriteFailed(kept: nat)

  /** The (success, message) pair every loader operation hands back to its caller. */
  datatype Status = Status(ok: bool, message: string)
}
